=== FILE: README.md ===
# Event management service — a Dafny model

This project models the core of a small event-management REST service. Users
hold a role. Registration accepts attendee, organizer, admin or masteradmin,
and a user update stores any role. There is also a master admin, who is
configured rather than stored. Organizers create events. Users join and
leave events, and an event may have a capacity.

The model covers three pieces:

- **The registration state machine** (`join_event` / `leave_event`). Each
  (event, user) pair is Registered or not. Join is guarded, in this order, by:
  the token's subject resolving to a stored user (401), the event existing
  (404), the capacity (500 when it is null, 400 "Event is full" when reached),
  and the duplicate check (400). Leave is guarded only by "the row exists"
  (400).
- **Authorization decisions.** These are: the admin-or-master-admin gate of
  the user endpoints, decided from the token's claims; `is_admin_or_master_admin`
  on a stored user, which gives owner-or-admin for event update and delete;
  organizer-only event creation; and registration, which needs the literal
  `admin` role claim. Each handler's fixed order of checks (422, 403, 404, 400,
  500) is part of its contract.
- **The schema validators.** These cover: username length and the no-space rule;
  password complexity; the role and status enumerations; the title, location and
  description bounds; positive capacity; and the date check against a `now`
  that is passed in.

The database is an immutable `Store` with three tables: `users`, `events` and
`event_attendees`. Each table is a sequence of rows in scan order, so
`.filter(...).first()` is the first matching row. Primary keys come from
per-table counters. Path parameters (`event_id`, `user_id`) are unbounded
integers, as FastAPI accepts any `int`. A negative id is simply absent.

`Models.Consistent` is the store invariant. It holds:
- unique primary keys;
- unique usernames;
- the `unique_event_user` constraint;
- keys and foreign keys below the counter of their table;
- every registration row refers to a stored event and a stored user;
- no event holds more registrations than its capacity.

Every mutating handler is proved to preserve it. The references are kept
because deletes fail while rows still refer to the target, as described
below.

Each handler is a pure function that returns `Result`: either the new store
(with the created or changed row), or the `HttpError` the handler raises, with
status and detail text.

Modules follow the source files:

| module | file | models |
|---|---|---|
| `Models` | models.dfy | the `User`, `Event`, `EventAttendee` rows, table constraints, lookups |
| `Schemas` | schemas.dfy | `UserCreate`, `UserUpdate`, `EventCreate`, `EventUpdate` and their validators |
| `Auth` | auth.dfy | decoded token claims, the master admin's username, the caller lookup |
| `Participation` | participation.dfy | `join_event`, `leave_event` |
| `Events` | events.dfy | the event handlers and `is_admin_or_master_admin` |
| `Users` | users.dfy | the user handlers and the master admin's password |
| `Outcomes`, `Text`, `Tables` | outcomes.dfy, text.dfy, tables.dfy | results and errors, character classes and lowering, sequence tables |

Some inputs are parameters. They live outside the modelled files
(`app.services.auth`) or come from the environment (the clock):
- the password hash function (`hash`);
- password verification (`verify`);
- the current instant (`now`);
- the decoded token, which becomes a `Claims(sub, role)` record.

## Behaviour worth knowing

- **Join with no capacity set.** `max_attendees` is nullable
  (app/models.py:36). event_participation.py:29 compares
  `len(event.attendees) >= event.max_attendees` with no None guard, so the
  comparison raises a TypeError that nothing catches, and the join answers
  500. `Participation.Join` returns `ServerError` there.
- **Joining twice.** The capacity check (event_participation.py:29) runs
  before the duplicate check (:32-34). If the first join took the last place,
  a second join of the same pair answers "Event is full", not "already
  registered". See `Participation.JoinTwice`.
- **Update or delete with an unstored caller.** events.py:59 and :88 look up
  the caller without checking the result, and :66 and :95 read `user.id`.
  When the token's subject is not a stored user (the master admin's, for
  one), update and delete of an existing event fail with 500 after the 404
  check. See `Events.UnstoredCallerCannotModify`.
- **Deleting a referenced event or user.** Deleting an event makes the ORM
  null `event_id` on its registration rows, and deleting a user nulls
  `user_id` on theirs. Both columns are NOT NULL (app/models.py:52-53), so
  the commit fails. The handler rolls back and answers 500 "Deletion failed"
  (events.py:102-104, users.py:182-184). A user's events have a nullable
  `organizer_id` (app/models.py:35); a successful user delete nulls it. An
  event without an organizer then cannot be returned by `get_event` or
  `list_events`, because `EventResponse.organizer_id` is a required int
  (app/schemas.py:112). Both answer 500.
- **The master admin and registration.** The user-management gate
  (users.py:99, 116, 137, 171) accepts a token whose subject is the master
  admin's username, whatever its role claim. Registration (users.py:39)
  requires the role claim `admin`. The master admin passes registration only
  because login issues that claim (users.py:74). See
  `Users.MasterNameAloneCannotRegister`.
- **The `masteradmin` role.** The `UserCreate` role pattern accepts
  `masteradmin` (app/schemas.py:12). Only the master admin's username is
  reserved, and only at registration (users.py:43-44). `update_user`
  (users.py:144-149) renames and re-roles without that check, and without
  validating the new values.

## Model

| member | source | states |
|---|---|---|
| `Tables.First` | app/routes/event_participation.py:32 | `.filter(p).first()` returns the position of a row that satisfies p with no earlier match, and None exactly when no row matches |
| `Models.UserByName` | app/routes/event_participation.py:20 | the username lookup finds a stored user with exactly that name, and finds nothing when the name is absent or no such user exists |
| `Models.EventById` | app/routes/events.py:61 | the id lookup finds a stored event with that id, and finds nothing exactly when no such event exists |
| `Models.EventIndex` | app/routes/events.py:90 | the event lookup by id finds a position exactly when a stored event has that id, and the row there has it |
| `Models.RegistrationIndex` | app/routes/event_participation.py:32 | the registration lookup finds a row for the (event, user) pair exactly when the pair is registered, and it is the first such row |
| `Models.AttendeesOf` | app/models.py:43 | an event's attendee list holds user id u exactly when some registration row has that event id and user u |
| `Models.UserByNameUnique` | app/models.py:12 | since usernames are unique, the lookup by a stored user's name returns that very user |
| `Models.EventIndexUnique` | app/models.py:29 | since event ids are unique, the lookup by a stored event's id returns that very row |
| `Models.UserIndexUnique` | app/routes/users.py:119 | since user ids are unique (app/models.py:11), the lookup by a stored user's id returns that very row |
| `Models.RegisteredAfterRemoveAt` | app/models.py:61 | under the `unique_event_user` constraint, deleting a registration row unregisters its pair and leaves every other pair's state alone |
| `Models.RegisteredAfterAppend` | app/models.py:49-58 | inserting a registration row registers its pair and no other |
| `Models.AttendeeCountRemoveAt` | app/models.py:43 | deleting a row of an event lowers that event's attendee count by one and leaves other events' lists unchanged |
| `Models.AttendeesOfAppend` | app/models.py:43 | appending a row puts its user at the end of its event's attendee list and leaves every other event's list unchanged |
| `Models.AttendeesOfNone` | app/models.py:43 | an event no row refers to has an empty attendee list |
| `Models.UserIndex` | app/routes/users.py:119 | the user lookup by id finds a position exactly when a stored user has that id, and the row there has it |
| `Models.AttendeeCount` | app/routes/event_participation.py:29 | `len(event.attendees)` is at most the number of registration rows, and is zero exactly when no row refers to the event |
| `Models.ResolvesAfterAppend` | app/models.py:52-53 | adding a registration row whose event and user are stored keeps every row's references resolving |
| `Models.ResolvesAfterRemoveAt` | app/models.py:52-53 | deleting a registration row keeps every remaining row's references resolving |
| `Models.ResolvesAfterEventsChange` | app/models.py:52 | changing the events table keeps references resolving when every registered event id is still stored |
| `Models.ResolvesAfterUsersChange` | app/models.py:53 | changing the users table keeps references resolving when every registered user id is still stored |
| `Auth.Subject` | app/routes/events.py:34-35 | the caller is a stored user whose username equals the token's `sub`, and there is none exactly when `sub` is missing or names no stored user |
| `Auth.RoleClaim` | app/routes/users.py:36 | the role claim is lowered character by character, so it holds no upper-case letter; a missing claim reads as the empty string |
| `Text.Lower` | app/routes/users.py:43 | `.lower()` keeps the length and maps every character to its lower-case form: an upper-case ASCII letter moves down by 32 to its lower-case letter, and every other character is kept |
| `Text.LowerIsAnyCase` | app/routes/events.py:37 | lowering a string gives a lower-case word exactly when the string spells that word with each letter in either case |
| `Text.Search` | app/schemas.py:25-32 | searching for a one-character class is true exactly when some character of the string belongs to the class |
| `Schemas.UsernameError` | app/schemas.py:10-18 | a username passes exactly when it has 3 to 50 characters and no space; the no-space message is given exactly when the length is fine and a space occurs |
| `Schemas.PasswordError` | app/schemas.py:11-33 | a password passes exactly when it has at least 8 characters including an upper-case letter, a lower-case letter, a digit and a special character; under 6 characters fails the field constraint and 6 or 7 characters get the length message; the upper-case and special-character messages are given exactly when the earlier checks pass and that class is missing |
| `Schemas.DateError` | app/schemas.py:62-72 | a date passes exactly when it has a time zone and is not earlier than now; a missing time zone is reported before a past date |
| `Schemas.ValidUserCreate` | app/schemas.py:9-33 | a passing registration body has a 3 to 50 character username, a password of at least 8 characters, and the role admin, masteradmin, organizer or attendee |
| `Schemas.ValidUserCreateIsValidators` | app/schemas.py:9-33 | a registration body passes exactly when the username and password validators report nothing and the role matches the pattern |
| `Schemas.ValidEventCreate` | app/schemas.py:54-72 | a creation body passes exactly when the title has 3 to 100 characters, a sent description at most 500, the location 3 to 200, the date passes `validate_date`, a sent status is one of the four, and a sent capacity is at least 1 |
| `Schemas.ValidEventUpdate` | app/schemas.py:78-95 | an update passes exactly when every field it sends meets the same bound as at creation; an empty update always passes; an explicit null description is accepted |
| `Schemas.CreateBodyIsValidUpdate` | app/schemas.py:54-95 | the fields of a valid creation body, sent as an update, pass the update's checks |
| `Schemas.StatusOf` | app/schemas.py:59 | an event's status is one of Scheduled, Ongoing, Completed or Cancelled; it is the status the request sent, or Scheduled when the request leaves it out |
| `Schemas.DateBoundary` | app/schemas.py:69-70 | a date equal to now is accepted, and one a unit earlier is rejected as in the past |
| `Events.IsAdminOrMasterAdmin` | app/routes/events.py:20-25 | a missing user is refused; a user bearing the master admin's username passes whatever their role; any other user passes exactly when their role spells admin in some mix of cases |
| `Events.MayCreate` | app/routes/events.py:37 | creation is allowed exactly when the caller is a stored user whose role spells organizer in some mix of cases; in particular an admin cannot create |
| `Events.MayModify` | app/routes/events.py:66-67 | the owner and any admin or master admin may modify; a user who is neither admin nor master admin may exactly when they own the event; an event with no organizer is open to admins only |
| `Participation.AddRegistration` | app/routes/event_participation.py:36-41 | inserting a registration keeps users and events, keeps every existing row in place, and adds one row for exactly the (event, user) pair |
| `Participation.Join` | app/routes/event_participation.py:16-44 | join fails with 401 exactly when the subject is not a stored user; with 404 exactly when the event is missing; with 500 exactly when the event has no capacity; with "Event is full" exactly when the count has reached the capacity; with "already registered" exactly when there is room but the pair is registered; otherwise it inserts the row for the pair and nothing else |
| `Participation.Leave` | app/routes/event_participation.py:50-69 | leave fails with 401 exactly when the subject is not a stored user, and with 400 exactly when the pair is not registered (event existence never matters); otherwise it deletes one row for the pair and nothing else |
| `Participation.JoinRegistersExactlyItsPair` | app/routes/event_participation.py:32-41 | a successful join turns the previously unregistered pair Registered, changes no other pair, and raises only that event's count, by one |
| `Participation.JoinPreservesConsistency` | app/routes/event_participation.py:29-41 | join keeps unique keys, the unique pair constraint, valid references and the capacity bound |
| `Participation.LeaveUnregistersExactlyItsPair` | app/routes/event_participation.py:59-66 | in a store satisfying the constraints, a successful leave unregisters exactly its pair and lowers only that event's count, by one |
| `Participation.LeavePreservesConsistency` | app/routes/event_participation.py:59-66 | leave keeps unique keys, the unique pair constraint, valid references and the capacity bound |
| `Participation.JoinThenLeaveRestores` | app/routes/event_participation.py:16-66 | leave right after a successful join of the same pair succeeds and gives back the original store, except for the row id the join used |
| `Participation.JoinLeaveJoin` | app/routes/event_participation.py:16-66 | join, leave, join of one pair all succeed, the pair is unregistered in between, and the same pairs end up registered as after the first join |
| `Participation.LeaveThenJoin` | app/routes/event_participation.py:29-66 | after a successful leave, joining again passes the duplicate check, and succeeds when the event still exists with a capacity |
| `Participation.JoinTwice` | app/routes/event_participation.py:29-34 | a second join of the same pair fails with "Event is full" if the first join used the last place, and with "already registered" otherwise |
| `Participation.CapacityOneScenario` | app/routes/event_participation.py:29-41 | at capacity one: A joins, B is refused as full, A leaves, B joins |
| `Events.NewEvent` | app/routes/events.py:40 | a new event takes every field from the request, its status as sent or the default, and the caller's id as organizer |
| `Events.CreateEvent` | app/routes/events.py:31-49 | an invalid body gets 422; otherwise creation is refused with 403 exactly when the caller is not a stored user whose lowercased role is organizer; a success appends exactly the new event under a fresh id |
| `Events.Authorize` | app/routes/events.py:64-67 | with the event found, a missing caller fails with 500, a caller who is neither owner nor admin nor master admin gets 403, and the owner or an admin passes |
| `Events.ApplyUpdate` | app/routes/events.py:69-70 | an update sets every field the patch sent and keeps every other one; id, owner and capacity never change |
| `Events.UpdateEvent` | app/routes/events.py:55-78 | an invalid patch gets 422; a missing event gets 404 whoever calls; a valid patch on an existing event whose caller fails authorization gets exactly that error (500 with no stored caller, 403 for a non-owner who is neither admin nor master admin); a success replaces exactly the target row with the patched event |
| `Events.DeleteEvent` | app/routes/events.py:84-104 | a missing event gets 404 whoever calls; then the authorization outcome; then 500 "Deletion failed" exactly when registration rows still refer to the event, since their NOT NULL `event_id` cannot be nulled; a success deletes the target event's row and nothing else |
| `Events.View` | app/routes/events.py:146-155 | an event has a response exactly when its organizer is set; the response carries every column of the event, lists user u exactly when u is registered for it, and has one attendee entry per registration row of the event |
| `Events.GetEvent` | app/routes/events.py:139-155 | get fails with 404 exactly when the id is missing, with 500 exactly when the event's organizer was nulled, and otherwise returns that event's full response with exactly its registered users |
| `Events.ListEvents` | app/routes/events.py:111-134 | list fails with 500 exactly when some stored event has no organizer; otherwise it returns, in order, one entry per stored event equal to that event's full response |
| `Events.CreatedEventHasNoAttendees` | app/routes/events.py:40-46 | a created event has an id no stored event had, can be fetched, and has an empty attendee list |
| `Events.CreatePreservesConsistency` | app/routes/events.py:35-46 | creation keeps the store constraints, resolving references and the capacity bound |
| `Events.UpdatePreservesConsistency` | app/routes/events.py:66-75 | update keeps the store constraints, resolving references and the capacity bound |
| `Events.DeletePreservesConsistency` | app/routes/events.py:95-104 | deletion keeps the store constraints, resolving references and the capacity bound |
| `Events.DeleteRemovesOnlyTarget` | app/routes/events.py:98-101 | after delete the target id is gone, every other event is found as before, and users and registrations are untouched |
| `Events.OwnerMayModify` | app/routes/events.py:66-67 | the owner can always update their own event, whatever their role, and can delete it exactly when no registration refers to it |
| `Events.UnstoredCallerCannotModify` | app/routes/events.py:59-67 | a master-admin token with no stored row gets past the 404 check and then fails with 500 on update and on delete |
| `Events.ListAgreesWithGet` | app/routes/events.py:111-155 | when list succeeds, get by each stored event's id returns the same entry; when get fails for a stored event, list fails too |
| `Events.ApplyUpdateIdempotent` | app/routes/events.py:69-70 | applying a patch twice equals applying it once, and an empty patch changes nothing |
| `Users.Register` | app/routes/users.py:32-62 | an invalid body gets 422; then 403 exactly when the lowercased role claim is not admin; then 403 exactly when the username equals the master admin's, ignoring case; then 400 exactly when the username exists exactly; otherwise exactly one user is appended, with a fresh id, the hashed password, the requested role, and active |
| `Users.Login` | app/routes/users.py:68-85 | the master admin's exact credentials get sub = master admin and role admin, with no lookup; otherwise a token is issued exactly when the username is stored and the password verifies against its hash, and it carries the stored role; every failure is 401 |
| `Users.MayRegister` | app/routes/users.py:36-40 | registration is allowed exactly when the token carries a role claim that spells admin in some mix of cases; a missing claim is refused |
| `Users.RequesterIsAdminOrMaster` | app/routes/users.py:95-100 | the user-management gate passes exactly when the subject is the master admin's username or the role claim spells admin in some mix of cases |
| `Users.Reserved` | app/routes/users.py:43 | a username is reserved exactly when it spells masteradmin in some mix of cases |
| `Users.ListUsers` | app/routes/users.py:91-102 | list is refused with 403 exactly when the claims are neither admin role nor master admin subject, and otherwise returns every stored user in order |
| `Users.ListUsersAgreesWithGetUser` | app/routes/users.py:91-123 | for an authorized caller, get by a stored user's id returns the same entry as the list |
| `Users.GetUser` | app/routes/users.py:108-123 | a non-admin gets 403 even for a missing id; an authorized caller gets 404 exactly when the id is missing, and otherwise that user |
| `Users.Patched` | app/routes/users.py:144-149 | only fields sent with a non-empty value change; a new password is stored as its hash; id and active flag never change |
| `Users.UpdateUser` | app/routes/users.py:129-157 | 403 before 404; the update succeeds exactly when the caller passes the gate, the user exists and no other user holds the new username; a clash makes the commit fail with 500 and nothing changes; a success replaces exactly the target row with the patched user |
| `Users.DeleteUser` | app/routes/users.py:163-184 | 403 before 404; then 500 "Deletion failed" exactly when registration rows still refer to the user; a success deletes exactly the target user's row and nulls the organizer of that user's events |
| `Users.Disowned` | app/models.py:35 | deleting a user nulls `organizer_id` on exactly the events that user organized and leaves every other column and event alone |
| `Users.DeleteUserRemovesOnlyTarget` | app/routes/users.py:178-181 | after a successful delete the user id is gone, every other user is kept, registrations are untouched, and every event keeps its id and no longer names the user as organizer |
| `Users.InsertUserPreservesConsistency` | app/routes/users.py:47-53 | inserting a user under the next id and an unused username keeps the store constraints |
| `Users.RegisterPreservesConsistency` | app/routes/users.py:47-59 | registration keeps the store constraints, resolving references and the capacity bound |
| `Users.RegisterThenLogin` | app/routes/users.py:47-85 | a freshly registered user logs in with the registered password and gets a token with the registered role, given that the password verifies against its own hash |
| `Users.MasterLoginPassesEveryGate` | app/routes/users.py:73-75 | the master admin's credentials always yield a token that passes both the registration gate and the admin gate |
| `Users.MasterNameAloneCannotRegister` | app/routes/users.py:36-40 | every token whose subject is the master admin's username and whose lowered role claim is not admin passes the user-management gate but is refused registration with 403 |
| `Users.ReservedIsLoweredEquality` | app/routes/users.py:43 | a username is reserved exactly when it equals the master admin's username once both are lowered |
| `Users.ReservedNameAlwaysForbidden` | app/routes/users.py:36-44 | registering the reserved username fails with 403 for every requester |
| `Users.UpdateUserPreservesConsistency` | app/routes/users.py:144-157 | a user update keeps the store constraints, resolving references and the capacity bound; a username clash never reaches the store |
| `Users.DeleteUserPreservesConsistency` | app/routes/users.py:174-184 | deleting a user keeps the store constraints, resolving references and the capacity bound |

## Left out

- Token signing, expiry and decoding (`decode_access_token`, `create_access_token`) are left out. A token is modelled as its decoded claims, so a malformed or expired token's 401 is not modelled. The 401 that `OAuth2PasswordBearer` gives for a missing header is not modelled either.
- Password hashing and verification are function parameters. The model does not know that bcrypt salts its hashes.
- Commit failures are modelled only where the schema forces them: a username clash in `update_user` (the unique constraint), and deleting an event or user that registration rows refer to (the NOT NULL foreign keys). Other database failures are left out of every handler, because nothing in the modelled files produces them. They would answer 500 with the store unchanged.
- Events.UpdateEvent: answers Ok when the event's organizer was nulled by a user delete. The source commits the patch and then fails response validation of `organizer_id` with 500, so the store changes but the client sees an error. Response validation runs after the handler returns, which this model does not follow.
- Primary keys come from per-table counters and are never reused. The database engine's own choice of ids is not part of this model.
- `created_at`, `updated_at` and `joined_at` timestamps are not modelled. A date is an integer instant plus a "has time zone" flag; `now` is a parameter.
- `EventUpdate` fields other than `description` cannot be sent as an explicit null in this model. The source would write that null into a NOT NULL column, or into `status`. `description` can be cleared (`Some(None)`).
- `Text.Lower` lowers ASCII letters only. For the three comparisons the service makes (with "admin", "organizer" and "masteradmin") it gives the same verdict as Python's Unicode `str.lower()`. A string with a non-ASCII character never lowers to one of those words. Python lowers such a character to a non-ASCII one, or to `k` (the Kelvin sign), or to `i` followed by a combining dot (U+0130). None of these can spell those words.
- `MASTER_ADMIN_USERNAME` and `MASTER_ADMIN_PASSWORD` take their default value "masteradmin". Reading them from the environment is not modelled.
- The 500 details of `update_user`, `delete_event` and `delete_user` keep only their fixed prefix ("Update failed", "Deletion failed"). The source appends the database error text (`f"...: {str(e)}"`), which is not modelled.
- A validation failure is one 422 error. Pydantic's list of per-field error entries is not modelled. Field-constraint failures carry the field name, and validator failures carry the validator's message.
- `list_events`'s own 500 "Error fetching events" on a database error is not modelled.
- Response validation of the rows that create, update and the user endpoints return is not modelled. The `organizer_id` check of `get_event` and `list_events` is modelled.
- Concurrent joins on a nearly full event are not modelled. Each handler is one atomic step on the store.
- The unused `is_admin` helper in users.py is not modelled.
- app/main.py, app/middleware.py and app/config.py (routing, CORS, logging, settings) are not part of this model, and neither is app/tests/test_main.py.

=== FILE: auth.dfy ===
/**
 * Decoded access tokens and the identity they stand for. Signing, expiry and
 * decoding failures belong to the credential service and are not part of
 * this model: a token is its claims.
 */
module Auth {
  import opened Outcomes
  import opened Text
  import opened Models

  /** The payload's `sub` and `role` entries; either may be missing. */
  datatype Claims = Claims(sub: Option<string>, role: Option<string>)

  /**
   * `MASTER_ADMIN_USERNAME`, read from the environment by both route
   * modules, with its default value. The master admin is not a stored user.
   */
  const MasterAdminUsername: string := "masteradmin"

  const AdminsOnly := HttpError(403, "Access denied. Admins only.")

  /** `payload.get("role", "").lower()` */
  function RoleClaim(c: Claims): (r: string)
    ensures c.role.None? ==> r == ""
    ensures |r| == |c.role.GetOr("")|
    ensures forall i :: 0 <= i < |r| ==> r[i] == LowerChar(c.role.value[i]) && !IsUpper(r[i])
  {
    Lower(c.role.GetOr(""))
  }

  /** The stored user a token speaks for: the first user whose username is the subject. */
  function Subject(s: Store, c: Claims): (r: Option<User>)
    ensures r.Some? <==> c.sub.Some? && HasUserNamed(s, c.sub.value)
    ensures r.Some? ==> r.value in s.users && Some(r.value.username) == c.sub
  {
    UserByName(s, c.sub)
  }
}

=== FILE: events.dfy ===
/**
 * The event handlers of events.py: creation by organizers, update and
 * deletion by the owner or an admin, and the public reads.
 */
module Events {
  import opened Outcomes
  import opened Tables
  import opened Text
  import opened Models
  import opened Auth
  import opened Schemas

  const OnlyOrganizers := HttpError(403, "Only event organizers can create events.")

  /** `is_admin_or_master_admin`: a stored user whose role is admin, or who bears the master admin's username. */
  function IsAdminOrMasterAdmin(user: Option<User>): (r: bool)
    ensures user.None? ==> !r
    ensures user.Some? && user.value.username == MasterAdminUsername ==> r
    ensures user.Some? && user.value.username != MasterAdminUsername ==>
      (r <==> AnyCaseOf(user.value.role, "admin", "ADMIN"))
  {
    if user.None? then false
    else
      LowerIsAnyCase(user.value.role, "admin", "ADMIN");
      Lower(user.value.role) == "admin" || user.value.username == MasterAdminUsername
  }

  /** Only a stored user whose role is organizer, in any mix of cases, may create events. */
  function MayCreate(user: Option<User>): (r: bool)
    ensures r <==> user.Some? && AnyCaseOf(user.value.role, "organizer", "ORGANIZER")
  {
    if user.None? then false
    else
      LowerIsAnyCase(user.value.role, "organizer", "ORGANIZER");
      Lower(user.value.role) == "organizer"
  }

  /** The owner, an admin or the master admin may update or delete an event. */
  function MayModify(user: User, e: Event): (r: bool)
    ensures e.organizerId == Some(user.id) ==> r
    ensures IsAdminOrMasterAdmin(Some(user)) ==> r
    ensures !IsAdminOrMasterAdmin(Some(user)) ==> (r <==> e.organizerId == Some(user.id))
    ensures e.organizerId.None? ==> (r <==> IsAdminOrMasterAdmin(Some(user)))
  {
    e.organizerId == Some(user.id) || IsAdminOrMasterAdmin(Some(user))
  }

  /** `Event(**event.dict(), organizer_id=user.id)` under the next event id. */
  function NewEvent(id: nat, b: EventCreate, organizerId: nat): (e: Event)
    requires b.status.None? || b.status.value in Statuses
    ensures e.id == id && e.organizerId == Some(organizerId)
    ensures e.title == b.title && e.description == b.description && e.location == b.location
    ensures e.date == b.date && e.maxAttendees == b.maxAttendees
    ensures e.status in Statuses
    ensures e.status == b.status.GetOr(DefaultStatus)
  {
    Event(id, b.title, b.description, b.location, b.date, StatusOf(b), Some(organizerId), b.maxAttendees)
  }

  /** `create_event` */
  function CreateEvent(s: Store, c: Claims, b: EventCreate, now: int): (r: Result<(Store, Event)>)
    ensures !ValidEventCreate(b, now) ==> r == Err(ValidationFailed)
    ensures r == Err(OnlyOrganizers) <==> ValidEventCreate(b, now) && !MayCreate(Subject(s, c))
    ensures r.Ok? <==> ValidEventCreate(b, now) && MayCreate(Subject(s, c))
    ensures r.Ok? ==>
      var (s', e) := r.value;
      && e == NewEvent(s.nextEventId, b, Subject(s, c).value.id)
      && s' == s.(events := s.events + [e], nextEventId := s.nextEventId + 1)
  {
    if !ValidEventCreate(b, now) then Err(ValidationFailed)
    else
      var user := Subject(s, c);
      if !MayCreate(user) then Err(OnlyOrganizers)
      else
        var e := NewEvent(s.nextEventId, b, user.value.id);
        Ok((s.(events := s.events + [e], nextEventId := s.nextEventId + 1), e))
  }

  /** `setattr` for every field the patch sent; every other column keeps its value. */
  function ApplyUpdate(e: Event, p: EventUpdate): (r: Event)
    ensures r.id == e.id && r.organizerId == e.organizerId && r.maxAttendees == e.maxAttendees
    ensures r.title == p.title.GetOr(e.title)
    ensures r.description == p.description.GetOr(e.description)
    ensures r.location == p.location.GetOr(e.location)
    ensures r.date == p.date.GetOr(e.date)
    ensures r.status == p.status.GetOr(e.status)
  {
    e.(title := p.title.GetOr(e.title),
       description := p.description.GetOr(e.description),
       location := p.location.GetOr(e.location),
       date := p.date.GetOr(e.date),
       status := p.status.GetOr(e.status))
  }

  /**
   * The authorization shared by update and delete, after the event was found:
   * no stored caller fails on `user.id` (500); a caller other than the owner
   * must pass `is_admin_or_master_admin` (403).
   */
  function Authorize(user: Option<User>, e: Event): (r: Option<HttpError>)
    ensures r == Some(ServerError) <==> user.None?
    ensures r == Some(AdminsOnly) <==> user.Some? && !MayModify(user.value, e)
    ensures r.None? <==> user.Some? && MayModify(user.value, e)
  {
    match user
    case None => Some(ServerError)
    case Some(u) =>
      if e.organizerId != Some(u.id) && !IsAdminOrMasterAdmin(user) then Some(AdminsOnly) else None
  }

  /** `update_event`: validation, then 404, then authorization, then the patch. */
  function UpdateEvent(s: Store, c: Claims, eventId: int, p: EventUpdate, now: int): (r: Result<(Store, Event)>)
    ensures !ValidEventUpdate(p, now) ==> r == Err(ValidationFailed)
    ensures r == Err(EventNotFound) <==> ValidEventUpdate(p, now) && !HasEvent(s, eventId)
    ensures r.Err? && r.error != ValidationFailed && r.error != EventNotFound ==>
      HasEvent(s, eventId) && Some(r.error) == Authorize(Subject(s, c), EventById(s, eventId).value)
    ensures (ValidEventUpdate(p, now) && HasEvent(s, eventId)
             && Authorize(Subject(s, c), EventById(s, eventId).value).Some?) ==>
      r == Err(Authorize(Subject(s, c), EventById(s, eventId).value).value)
    ensures r.Ok? <==>
      ValidEventUpdate(p, now) && HasEvent(s, eventId)
      && Authorize(Subject(s, c), EventById(s, eventId).value).None?
    ensures r.Ok? ==>
      var k := EventIndex(s, eventId).value;
      && r.value.1 == ApplyUpdate(s.events[k], p)
      && r.value.0 == s.(events := s.events[k := r.value.1])
  {
    if !ValidEventUpdate(p, now) then Err(ValidationFailed)
    else
      var user := Subject(s, c);
      match EventIndex(s, eventId)
      case None => Err(EventNotFound)
      case Some(k) =>
        match Authorize(user, s.events[k])
        case Some(err) => Err(err)
        case None =>
          var e := ApplyUpdate(s.events[k], p);
          Ok((s.(events := s.events[k := e]), e))
  }

  /**
   * `delete_event`: 404, then authorization, then the delete. Deleting an
   * event makes the ORM null `event_id` on its registration rows; that
   * column is NOT NULL, so while any row refers to the event the commit
   * fails and is rolled back.
   */
  function DeleteEvent(s: Store, c: Claims, eventId: int): (r: Result<Store>)
    ensures r == Err(EventNotFound) <==> !HasEvent(s, eventId)
    ensures r.Err? && r.error != EventNotFound && r.error != DeletionFailed ==>
      HasEvent(s, eventId) && Some(r.error) == Authorize(Subject(s, c), EventById(s, eventId).value)
    ensures r == Err(DeletionFailed) <==>
      HasEvent(s, eventId) && Authorize(Subject(s, c), EventById(s, eventId).value).None?
      && EventReferenced(s, eventId)
    ensures r.Ok? <==>
      HasEvent(s, eventId) && Authorize(Subject(s, c), EventById(s, eventId).value).None?
      && !EventReferenced(s, eventId)
    ensures r.Ok? ==> r.value == s.(events := RemoveAt(s.events, EventIndex(s, eventId).value))
  {
    match EventIndex(s, eventId)
    case None => Err(EventNotFound)
    case Some(k) =>
      match Authorize(Subject(s, c), s.events[k])
      case Some(err) => Err(err)
      case None =>
        if EventReferenced(s, eventId) then Err(DeletionFailed)
        else Ok(s.(events := RemoveAt(s.events, k)))
  }

  /** `EventResponse`: the event's columns and the user ids registered for it. */
  datatype EventView = EventView(
    id: nat,
    title: string,
    description: Option<string>,
    location: string,
    date: Date,
    status: string,
    organizerId: nat,
    maxAttendees: Option<int>,
    attendees: seq<nat>)

  /**
   * Building the `EventResponse` of an event. Its `organizer_id` field is a
   * required int, so an event whose organizer was nulled fails validation.
   */
  function View(s: Store, e: Event): (v: Option<EventView>)
    ensures v.None? <==> e.organizerId.None?
    ensures v.Some? ==>
      && v.value.id == e.id && v.value.title == e.title && v.value.description == e.description
      && v.value.location == e.location && v.value.date == e.date && v.value.status == e.status
      && Some(v.value.organizerId) == e.organizerId && v.value.maxAttendees == e.maxAttendees
    ensures v.Some? ==> forall u :: u in v.value.attendees <==> Registered(s, e.id, u)
    ensures v.Some? ==> |v.value.attendees| == AttendeeCount(s, e.id)
  {
    match e.organizerId
    case None => None
    case Some(o) =>
      Some(EventView(e.id, e.title, e.description, e.location, e.date, e.status,
                     o, e.maxAttendees, AttendeesOf(s.attendees, e.id)))
  }

  /** `get_event`: public; 404 for a missing id, 500 when the response cannot be built. */
  function GetEvent(s: Store, eventId: int): (r: Result<EventView>)
    ensures r == Err(EventNotFound) <==> !HasEvent(s, eventId)
    ensures r == Err(ServerError) <==> HasEvent(s, eventId) && EventById(s, eventId).value.organizerId.None?
    ensures r.Ok? <==> HasEvent(s, eventId) && EventById(s, eventId).value.organizerId.Some?
    ensures r.Ok? ==> Some(r.value) == View(s, EventById(s, eventId).value)
    ensures r.Ok? ==> r.value.id == eventId && forall u :: u in r.value.attendees <==> Registered(s, eventId, u)
  {
    match EventById(s, eventId)
    case None => Err(EventNotFound)
    case Some(e) =>
      match View(s, e)
      case None => Err(ServerError)
      case Some(v) => Ok(v)
  }

  /**
   * `list_events`: public; one response per stored event, in table order. A
   * response that fails validation is not a database error, so it is not
   * caught and the whole request fails.
   */
  function ListEvents(s: Store): (r: Result<seq<EventView>>)
    ensures r.Err? <==> exists i :: 0 <= i < |s.events| && s.events[i].organizerId.None?
    ensures r.Err? ==> r.error == ServerError
    ensures r.Ok? ==> |r.value| == |s.events|
    ensures r.Ok? ==> forall i :: 0 <= i < |s.events| ==> Some(r.value[i]) == View(s, s.events[i])
  {
    if exists i :: 0 <= i < |s.events| && s.events[i].organizerId.None? then Err(ServerError)
    else
      Ok(seq(|s.events|, i requires 0 <= i < |s.events| && s.events[i].organizerId.Some? =>
        View(s, s.events[i]).value))
  }

  /** A created event is stored under a fresh id and starts with no attendees. */
  lemma CreatedEventHasNoAttendees(s: Store, c: Claims, b: EventCreate, now: int)
    requires Valid(s)
    requires CreateEvent(s, c, b, now).Ok?
    ensures var (s', e) := CreateEvent(s, c, b, now).value;
      && !HasEvent(s, e.id)
      && GetEvent(s', e.id).Ok?
      && GetEvent(s', e.id).value.attendees == []
  {
    var (s', e) := CreateEvent(s, c, b, now).value;
    forall k | 0 <= k < |s.events|
      ensures s.events[k].id != e.id
    {
      assert EventKey(s.events[k]) < s.nextEventId;
    }
    assert s'.events[|s.events|] == e;
    forall i | 0 <= i < |s.attendees|
      ensures s.attendees[i].eventId != e.id
    {
      assert AttendeeEvent(s.attendees[i]) < s.nextEventId;
    }
    AttendeesOfNone(s'.attendees, e.id);
  }

  /** Creation keeps the declared constraints, the capacity bound and resolving references. */
  lemma CreatePreservesConsistency(s: Store, c: Claims, b: EventCreate, now: int)
    requires Consistent(s)
    requires CreateEvent(s, c, b, now).Ok?
    ensures Consistent(CreateEvent(s, c, b, now).value.0)
  {
    var (s', e) := CreateEvent(s, c, b, now).value;
    CreatedEventHasNoAttendees(s, c, b, now);
    DistinctAppend(s.events, e, EventKey);
    assert Valid(s');
    forall m | 0 <= m < |s'.events| && s'.events[m].maxAttendees.Some?
      ensures AttendeeCount(s', s'.events[m].id) <= s'.events[m].maxAttendees.value
    {
      if m < |s.events| {
        assert s'.events[m] == s.events[m];
      } else {
        assert s'.events[m] == e;
        assert GetEvent(s', e.id).value.attendees == AttendeesOf(s'.attendees, e.id);
      }
    }
    forall i | 0 <= i < |s.attendees|
      ensures HasEvent(s', s.attendees[i].eventId)
    {
      var k :| 0 <= k < |s.events| && s.events[k].id == s.attendees[i].eventId;
      assert s'.events[k] == s.events[k];
    }
    ResolvesAfterEventsChange(s, s');
  }

  /** Update keeps the declared constraints, the capacity bound and resolving references: it cannot change an id, an owner or a capacity. */
  lemma UpdatePreservesConsistency(s: Store, c: Claims, eventId: int, p: EventUpdate, now: int)
    requires Consistent(s)
    requires UpdateEvent(s, c, eventId, p, now).Ok?
    ensures Consistent(UpdateEvent(s, c, eventId, p, now).value.0)
  {
    var (s', e) := UpdateEvent(s, c, eventId, p, now).value;
    var k := EventIndex(s, eventId).value;
    forall j | 0 <= j < |s.events| && j != k
      ensures EventKey(s.events[j]) != EventKey(e)
    {
      assert EventKey(s.events[j]) != EventKey(s.events[k]);
    }
    DistinctReplace(s.events, k, e, EventKey);
    assert Valid(s');
    forall i | 0 <= i < |s.attendees|
      ensures HasEvent(s', s.attendees[i].eventId)
    {
      var j :| 0 <= j < |s.events| && s.events[j].id == s.attendees[i].eventId;
      assert s'.events[j].id == s.events[j].id;
    }
    ResolvesAfterEventsChange(s, s');
  }

  /**
   * Deletion keeps the declared constraints, the capacity bound and resolving
   * references: an event that registrations still refer to is never deleted.
   */
  lemma DeletePreservesConsistency(s: Store, c: Claims, eventId: int)
    requires Consistent(s)
    requires DeleteEvent(s, c, eventId).Ok?
    ensures Consistent(DeleteEvent(s, c, eventId).value)
  {
    var s' := DeleteEvent(s, c, eventId).value;
    var k := EventIndex(s, eventId).value;
    DistinctRemoveAt(s.events, k, EventKey);
    BelowRemoveAt(s.events, k, EventKey, s.nextEventId);
    forall i | 0 <= i < |s.attendees|
      ensures HasEvent(s', s.attendees[i].eventId)
    {
      var j :| 0 <= j < |s.events| && s.events[j].id == s.attendees[i].eventId;
      assert j != k;
      var j' := if j < k then j else j - 1;
      assert s'.events[j'] == s.events[j];
    }
    ResolvesAfterEventsChange(s, s');
  }

  /** Delete removes the target event and no other; users and registrations are untouched. */
  lemma DeleteRemovesOnlyTarget(s: Store, c: Claims, eventId: int)
    requires Valid(s)
    requires DeleteEvent(s, c, eventId).Ok?
    ensures var s' := DeleteEvent(s, c, eventId).value;
      && !HasEvent(s', eventId)
      && (forall id: int :: id != eventId ==> EventById(s', id) == EventById(s, id))
      && s'.users == s.users && s'.attendees == s.attendees
  {
    var s' := DeleteEvent(s, c, eventId).value;
    var k := EventIndex(s, eventId).value;
    forall id: int | id != eventId
      ensures EventById(s', id) == EventById(s, id)
    {
      if HasEvent(s, id) {
        var i := EventIndex(s, id).value;
        assert i != k;
        var i' := if i < k then i else i - 1;
        assert s'.events[i'] == s.events[i];
        EventIndexUnique(s, i);
        DistinctRemoveAt(s.events, k, EventKey);
        var t := s'.events[i'];
        assert EventIndex(s', t.id).value == i' by {
          var x := EventIndex(s', t.id).value;
          assert EventKey(s'.events[x]) == EventKey(s'.events[i']);
        }
      }
    }
  }

  /**
   * The owner may always update their event, whatever their role, and may
   * delete it exactly when no registration refers to it.
   */
  lemma OwnerMayModify(s: Store, c: Claims, eventId: int, p: EventUpdate, now: int)
    requires ValidEventUpdate(p, now)
    requires HasEvent(s, eventId)
    requires Subject(s, c).Some? && EventById(s, eventId).value.organizerId == Some(Subject(s, c).value.id)
    ensures UpdateEvent(s, c, eventId, p, now).Ok?
    ensures DeleteEvent(s, c, eventId).Ok? <==> !EventReferenced(s, eventId)
  {
  }

  /**
   * A token whose subject is not a stored user (the master admin's, for one)
   * gets past the 404 check and then fails on `user.id`.
   */
  lemma UnstoredCallerCannotModify(s: Store, c: Claims, eventId: int, p: EventUpdate, now: int)
    requires ValidEventUpdate(p, now)
    requires HasEvent(s, eventId)
    requires c.sub == Some(MasterAdminUsername) && !HasUserNamed(s, MasterAdminUsername)
    ensures UpdateEvent(s, c, eventId, p, now) == Err(ServerError)
    ensures DeleteEvent(s, c, eventId) == Err(ServerError)
  {
  }

  /**
   * Listing and fetching by id agree on every stored event, and an event
   * that cannot be fetched makes the whole list fail.
   */
  lemma ListAgreesWithGet(s: Store, i: nat)
    requires Valid(s)
    requires i < |s.events|
    ensures ListEvents(s).Ok? ==> GetEvent(s, s.events[i].id) == Ok(ListEvents(s).value[i])
    ensures GetEvent(s, s.events[i].id).Err? ==> ListEvents(s).Err?
  {
    EventIndexUnique(s, i);
  }

  /** Applying the same patch twice changes nothing more; an empty patch changes nothing. */
  lemma ApplyUpdateIdempotent(e: Event, p: EventUpdate)
    ensures ApplyUpdate(ApplyUpdate(e, p), p) == ApplyUpdate(e, p)
    ensures ApplyUpdate(e, EventUpdate(None, None, None, None, None)) == e
  {
  }
}

=== FILE: models.dfy ===
/**
 * The three tables of the service (users, events, event_attendees), their
 * integrity constraints, and the lookups the handlers run against them.
 */
module Models {
  import opened Outcomes
  import opened Tables

  /** A timestamp: an instant on a common time line, and whether it carried a time zone. */
  datatype Date = Date(instant: int, hasTz: bool)

  /** A row of `users`; `password` holds the hashed credential. */
  datatype User = User(id: nat, username: string, password: string, role: string, isActive: bool)

  /**
   * A row of `events`; `maxAttendees` is the nullable capacity column and
   * `organizerId` the nullable reference to the user who created it.
   */
  datatype Event = Event(
    id: nat,
    title: string,
    description: Option<string>,
    location: string,
    date: Date,
    status: string,
    organizerId: Option<nat>,
    maxAttendees: Option<int>)

  /** A row of `event_attendees`: one registration of a user for an event. */
  datatype Attendee = Attendee(id: nat, eventId: nat, userId: nat)

  /**
   * The whole database. Each `next…Id` is the primary key the table hands
   * to its next inserted row.
   */
  datatype Store = Store(
    users: seq<User>,
    events: seq<Event>,
    attendees: seq<Attendee>,
    nextUserId: nat,
    nextEventId: nat,
    nextAttendeeId: nat)

  /** Column defaults. */
  const DefaultStatus: string := "Scheduled"
  const DefaultIsActive: bool := true

  const EmptyStore: Store := Store([], [], [], 1, 1, 1)

  function UserKey(u: User): nat { u.id }
  function UsernameKey(u: User): string { u.username }
  function EventKey(e: Event): nat { e.id }
  function AttendeeKey(a: Attendee): nat { a.id }
  function AttendeeEvent(a: Attendee): nat { a.eventId }
  function AttendeeUser(a: Attendee): nat { a.userId }
  function PairKey(a: Attendee): (nat, nat) { (a.eventId, a.userId) }

  /**
   * The declared constraints: primary keys, unique usernames, the
   * `unique_event_user` constraint, and foreign keys that point at ids
   * the referenced table has handed out.
   */
  predicate Valid(s: Store) {
    && Distinct(s.users, UserKey) && Below(s.users, UserKey, s.nextUserId)
    && Distinct(s.users, UsernameKey)
    && Distinct(s.events, EventKey) && Below(s.events, EventKey, s.nextEventId)
    && Distinct(s.attendees, AttendeeKey) && Below(s.attendees, AttendeeKey, s.nextAttendeeId)
    && Distinct(s.attendees, PairKey)
    && Below(s.attendees, AttendeeEvent, s.nextEventId)
    && Below(s.attendees, AttendeeUser, s.nextUserId)
  }

  predicate HasUserNamed(s: Store, name: string) {
    exists i :: 0 <= i < |s.users| && s.users[i].username == name
  }

  predicate HasUserId(s: Store, id: int) {
    exists i :: 0 <= i < |s.users| && s.users[i].id == id
  }

  predicate HasEvent(s: Store, id: int) {
    exists i :: 0 <= i < |s.events| && s.events[i].id == id
  }

  /** The (event, user) pair is in the Registered state. */
  predicate Registered(s: Store, eventId: int, userId: int) {
    exists i :: 0 <= i < |s.attendees| && s.attendees[i].eventId == eventId && s.attendees[i].userId == userId
  }

  /** `query(User).filter(User.username == name).first()` */
  function UserByName(s: Store, name: Option<string>): (r: Option<User>)
    ensures r.Some? <==> name.Some? && HasUserNamed(s, name.value)
    ensures r.Some? ==> r.value in s.users && r.value.username == name.value
  {
    if name.None? then None
    else
      match First(s.users, (u: User) => u.username == name.value)
      case None => None
      case Some(i) => Some(s.users[i])
  }

  /** Position of `query(User).filter(User.id == id).first()` */
  function UserIndex(s: Store, id: int): (r: Option<nat>)
    ensures r.Some? <==> HasUserId(s, id)
    ensures r.Some? ==> r.value < |s.users| && s.users[r.value].id == id
  {
    First(s.users, (u: User) => u.id == id)
  }

  /** Position of `query(Event).filter(Event.id == id).first()` */
  function EventIndex(s: Store, id: int): (r: Option<nat>)
    ensures r.Some? <==> HasEvent(s, id)
    ensures r.Some? ==> r.value < |s.events| && s.events[r.value].id == id
  {
    First(s.events, (e: Event) => e.id == id)
  }

  const EventNotFound := HttpError(404, "Event not found")

  /** A delete whose commit failed and was rolled back. */
  const DeletionFailed := HttpError(500, "Deletion failed")

  /** `query(Event).filter(Event.id == id).first()` */
  function EventById(s: Store, id: int): (r: Option<Event>)
    ensures r.Some? <==> HasEvent(s, id)
    ensures r.Some? ==> r.value in s.events && r.value.id == id
  {
    match EventIndex(s, id)
    case None => None
    case Some(k) => Some(s.events[k])
  }

  /** Position of `query(EventAttendee).filter_by(event_id=…, user_id=…).first()` */
  function RegistrationIndex(s: Store, eventId: int, userId: int): (r: Option<nat>)
    ensures r.Some? <==> Registered(s, eventId, userId)
    ensures r.Some? ==> r.value < |s.attendees|
    ensures r.Some? ==> s.attendees[r.value].eventId == eventId && s.attendees[r.value].userId == userId
    ensures r.Some? ==> forall j :: 0 <= j < r.value ==> PairKey(s.attendees[j]) != (eventId, userId)
  {
    First(s.attendees, (a: Attendee) => a.eventId == eventId && a.userId == userId)
  }

  /** The user ids of the rows registered for `eventId`, in table order (`event.attendees`). */
  function AttendeesOf(rows: seq<Attendee>, eventId: int): (r: seq<nat>)
    ensures |r| <= |rows|
    ensures forall u :: u in r <==> exists i :: 0 <= i < |rows| && rows[i].eventId == eventId && rows[i].userId == u
  {
    if |rows| == 0 then []
    else
      var rest := AttendeesOf(rows[1..], eventId);
      assert forall i :: 1 <= i < |rows| ==> rows[i] == rows[1..][i - 1];
      (if rows[0].eventId == eventId then [rows[0].userId] else []) + rest
  }

  /** Some registration row refers to the event. */
  predicate EventReferenced(s: Store, eventId: int) {
    exists i :: 0 <= i < |s.attendees| && s.attendees[i].eventId == eventId
  }

  /** Some registration row refers to the user. */
  predicate UserReferenced(s: Store, userId: int) {
    exists i :: 0 <= i < |s.attendees| && s.attendees[i].userId == userId
  }

  /** `len(event.attendees)` */
  function AttendeeCount(s: Store, eventId: int): (r: nat)
    ensures r <= |s.attendees|
    ensures r == 0 <==> !EventReferenced(s, eventId)
  {
    var l := AttendeesOf(s.attendees, eventId);
    assert EventReferenced(s, eventId) <==> |l| > 0 by {
      if EventReferenced(s, eventId) {
        var i :| 0 <= i < |s.attendees| && s.attendees[i].eventId == eventId;
        assert s.attendees[i].userId in l;
      }
      if |l| > 0 {
        assert l[0] in l;
      }
    }
    |l|
  }

  /** Every event with a capacity holds at most that many registrations. */
  predicate WithinCapacity(s: Store) {
    forall k :: 0 <= k < |s.events| && s.events[k].maxAttendees.Some? ==>
      AttendeeCount(s, s.events[k].id) <= s.events[k].maxAttendees.value
  }

  /**
   * Every registration row refers to a stored event and a stored user. The
   * `event_id` and `user_id` columns are NOT NULL, so a flush that would
   * orphan a row fails, and the handlers' deletes are refused instead.
   */
  predicate ReferencesResolve(s: Store) {
    forall i :: 0 <= i < |s.attendees| ==>
      HasEvent(s, s.attendees[i].eventId) && HasUserId(s, s.attendees[i].userId)
  }

  /** The service's consistency condition: declared constraints, capacity, and resolving references. */
  predicate Consistent(s: Store) {
    Valid(s) && WithinCapacity(s) && ReferencesResolve(s)
  }

  lemma EmptyStoreConsistent()
    ensures Consistent(EmptyStore)
  {
  }

  /** With unique usernames, the first user with a name is the only one. */
  lemma UserByNameUnique(s: Store, i: nat)
    requires Valid(s)
    requires i < |s.users|
    ensures UserByName(s, Some(s.users[i].username)) == Some(s.users[i])
  {
    var r := UserByName(s, Some(s.users[i].username));
    var j :| 0 <= j < |s.users| && s.users[j] == r.value;
    assert UsernameKey(s.users[j]) == UsernameKey(s.users[i]);
  }

  /** With unique primary keys, the first event with an id is the only one. */
  lemma EventIndexUnique(s: Store, k: nat)
    requires Valid(s)
    requires k < |s.events|
    ensures EventIndex(s, s.events[k].id) == Some(k)
  {
    var r := EventIndex(s, s.events[k].id);
    assert EventKey(s.events[r.value]) == EventKey(s.events[k]);
  }

  /** With unique primary keys, the first user with an id is the only one. */
  lemma UserIndexUnique(s: Store, k: nat)
    requires Valid(s)
    requires k < |s.users|
    ensures UserIndex(s, s.users[k].id) == Some(k)
  {
    var r := UserIndex(s, s.users[k].id);
    assert UserKey(s.users[r.value]) == UserKey(s.users[k]);
  }

  /** The attendee list of a concatenation is the concatenation of the lists. */
  lemma {:induction false} AttendeesOfConcat(a: seq<Attendee>, b: seq<Attendee>, eventId: int)
    ensures AttendeesOf(a + b, eventId) == AttendeesOf(a, eventId) + AttendeesOf(b, eventId)
  {
    if |a| == 0 {
      assert a + b == b;
    } else {
      var head := if a[0].eventId == eventId then [a[0].userId] else [];
      assert (a + b)[0] == a[0];
      assert (a + b)[1..] == a[1..] + b;
      assert AttendeesOf(a + b, eventId) == head + AttendeesOf(a[1..] + b, eventId);
      assert AttendeesOf(a, eventId) == head + AttendeesOf(a[1..], eventId);
      AttendeesOfConcat(a[1..], b, eventId);
    }
  }

  /** Deleting a row of an event lowers that event's count by one and leaves every other count alone. */
  lemma AttendeeCountRemoveAt(rows: seq<Attendee>, i: nat, eventId: int)
    requires i < |rows|
    ensures rows[i].eventId == eventId ==>
      |AttendeesOf(RemoveAt(rows, i), eventId)| + 1 == |AttendeesOf(rows, eventId)|
    ensures rows[i].eventId != eventId ==>
      AttendeesOf(RemoveAt(rows, i), eventId) == AttendeesOf(rows, eventId)
  {
    assert rows == rows[..i] + [rows[i]] + rows[i + 1..];
    AttendeesOfConcat(rows[..i] + [rows[i]], rows[i + 1..], eventId);
    AttendeesOfConcat(rows[..i], [rows[i]], eventId);
    AttendeesOfConcat(rows[..i], rows[i + 1..], eventId);
    assert AttendeesOf([rows[i]], eventId) == (if rows[i].eventId == eventId then [rows[i].userId] else []) by {
      assert [rows[i]][1..] == [];
    }
  }

  /** Appending a row of an event raises that event's count by one and leaves every other count alone. */
  lemma AttendeesOfAppend(rows: seq<Attendee>, a: Attendee, eventId: int)
    ensures AttendeesOf(rows + [a], eventId) ==
      AttendeesOf(rows, eventId) + (if a.eventId == eventId then [a.userId] else [])
  {
    AttendeesOfConcat(rows, [a], eventId);
    assert [a][1..] == [];
  }

  /** Deleting row `i` unregisters its pair (the only row for it, by the unique constraint) and no other. */
  lemma RegisteredAfterRemoveAt(s: Store, i: nat, e: int, u: int)
    requires i < |s.attendees|
    requires Distinct(s.attendees, PairKey)
    ensures Registered(s.(attendees := RemoveAt(s.attendees, i)), e, u) <==>
      Registered(s, e, u) && (e, u) != PairKey(s.attendees[i])
  {
    var s' := s.(attendees := RemoveAt(s.attendees, i));
    if Registered(s', e, u) {
      var j :| 0 <= j < |s'.attendees| && s'.attendees[j].eventId == e && s'.attendees[j].userId == u;
      var j' := if j < i then j else j + 1;
      assert s'.attendees[j] == s.attendees[j'];
      assert PairKey(s.attendees[j']) != PairKey(s.attendees[i]);
    }
    if Registered(s, e, u) && (e, u) != PairKey(s.attendees[i]) {
      var j :| 0 <= j < |s.attendees| && s.attendees[j].eventId == e && s.attendees[j].userId == u;
      var j' := if j < i then j else j - 1;
      assert s'.attendees[j'] == s.attendees[j];
    }
  }

  /** Appending a row registers its pair and no other. */
  lemma RegisteredAfterAppend(s: Store, a: Attendee, e: int, u: int)
    ensures Registered(s.(attendees := s.attendees + [a]), e, u) <==>
      Registered(s, e, u) || (e, u) == PairKey(a)
  {
    var s' := s.(attendees := s.attendees + [a]);
    if Registered(s', e, u) {
      var j :| 0 <= j < |s'.attendees| && s'.attendees[j].eventId == e && s'.attendees[j].userId == u;
      if j < |s.attendees| {
        assert s'.attendees[j] == s.attendees[j];
      }
    }
    if Registered(s, e, u) {
      var j :| 0 <= j < |s.attendees| && s.attendees[j].eventId == e && s.attendees[j].userId == u;
      assert s'.attendees[j] == s.attendees[j];
    }
    if (e, u) == PairKey(a) {
      assert s'.attendees[|s.attendees|] == a;
    }
  }

  /** An event no row refers to has an empty attendee list. */
  lemma {:induction false} AttendeesOfNone(rows: seq<Attendee>, eventId: int)
    requires forall i :: 0 <= i < |rows| ==> rows[i].eventId != eventId
    ensures AttendeesOf(rows, eventId) == []
  {
    if |rows| > 0 {
      AttendeesOfNone(rows[1..], eventId);
    }
  }

  /** Appending a row whose event and user are stored keeps every reference resolving. */
  lemma ResolvesAfterAppend(s: Store, t: Store, a: Attendee)
    requires ReferencesResolve(s)
    requires t.users == s.users && t.events == s.events && t.attendees == s.attendees + [a]
    requires HasEvent(s, a.eventId) && HasUserId(s, a.userId)
    ensures ReferencesResolve(t)
  {
    forall i | 0 <= i < |t.attendees|
      ensures HasEvent(t, t.attendees[i].eventId) && HasUserId(t, t.attendees[i].userId)
    {
      if i < |s.attendees| {
        assert t.attendees[i] == s.attendees[i];
      }
    }
  }

  /** Deleting a row keeps every reference resolving. */
  lemma ResolvesAfterRemoveAt(s: Store, i: nat)
    requires ReferencesResolve(s)
    requires i < |s.attendees|
    ensures ReferencesResolve(s.(attendees := RemoveAt(s.attendees, i)))
  {
    var t := s.(attendees := RemoveAt(s.attendees, i));
    forall j | 0 <= j < |t.attendees|
      ensures HasEvent(t, t.attendees[j].eventId) && HasUserId(t, t.attendees[j].userId)
    {
      var j' := if j < i then j else j + 1;
      assert t.attendees[j] == s.attendees[j'];
    }
  }

  /**
   * Changing the events table keeps references resolving as long as every
   * event id a row refers to is still present.
   */
  lemma ResolvesAfterEventsChange(s: Store, t: Store)
    requires ReferencesResolve(s)
    requires t.users == s.users && t.attendees == s.attendees
    requires forall i :: 0 <= i < |s.attendees| ==> HasEvent(t, s.attendees[i].eventId)
    ensures ReferencesResolve(t)
  {
    forall i | 0 <= i < |t.attendees|
      ensures HasEvent(t, t.attendees[i].eventId) && HasUserId(t, t.attendees[i].userId)
    {
      assert HasUserId(s, s.attendees[i].userId);
      var j :| 0 <= j < |s.users| && s.users[j].id == s.attendees[i].userId;
      assert t.users[j].id == t.attendees[i].userId;
    }
  }

  /**
   * Changing the users and events tables keeps references resolving as long
   * as every user id a row refers to is still present and event ids are kept
   * in place.
   */
  lemma ResolvesAfterUsersChange(s: Store, t: Store)
    requires ReferencesResolve(s)
    requires t.attendees == s.attendees && |t.events| == |s.events|
    requires forall k :: 0 <= k < |s.events| ==> t.events[k].id == s.events[k].id
    requires forall i :: 0 <= i < |s.attendees| ==> HasUserId(t, s.attendees[i].userId)
    ensures ReferencesResolve(t)
  {
    forall i | 0 <= i < |t.attendees|
      ensures HasEvent(t, t.attendees[i].eventId) && HasUserId(t, t.attendees[i].userId)
    {
      assert HasEvent(s, s.attendees[i].eventId);
      var k :| 0 <= k < |s.events| && s.events[k].id == s.attendees[i].eventId;
      assert t.events[k].id == t.attendees[i].eventId;
    }
  }
}

=== FILE: outcomes.dfy ===
/**
 * Optional values, handler results, and the HTTP errors the handlers raise.
 */
module Outcomes {

  /** A value that may be absent (a nullable column or an optional field). */
  datatype Option<+T> = None | Some(value: T) {

    /** The value, or `default` when absent (`dict.get(key, default)`). */
    function GetOr(default: T): T {
      match this
      case Some(v) => v
      case None => default
    }
  }

  /** An `HTTPException`: status code and detail text. */
  datatype HttpError = HttpError(status: nat, detail: string)

  /** What a handler returns: a value, or the error response it raises. */
  datatype Result<+T> = Ok(value: T) | Err(error: HttpError)

  /** Request-body validation failure, reported before the handler body runs. */
  const ValidationFailed: HttpError := HttpError(422, "Unprocessable Entity")

  /** An exception no handler catches (a TypeError, an AttributeError). */
  const ServerError: HttpError := HttpError(500, "Internal Server Error")
}

=== FILE: participation.dfy ===
/**
 * The registration state machine of event_participation.py. Each
 * (event, user) pair is either Registered (a row in `event_attendees`) or not;
 * join and leave move a pair between the two states.
 */
module Participation {
  import opened Outcomes
  import opened Tables
  import opened Models
  import opened Auth

  const InvalidUser := HttpError(401, "Invalid user credentials")
  const EventFull := HttpError(400, "Event is full")
  const AlreadyRegistered := HttpError(400, "User already registered for this event")
  const NotRegistered := HttpError(400, "You are not registered for this event")

  /** The event has a capacity and fewer registrations than it. */
  predicate HasRoom(s: Store, e: Event) {
    e.maxAttendees.Some? && AttendeeCount(s, e.id) < e.maxAttendees.value
  }

  /** The store with the registration row (eventId, userId) inserted under the next row id. */
  function AddRegistration(s: Store, eventId: nat, userId: nat): (r: Store)
    ensures r.users == s.users && r.events == s.events
    ensures r.nextUserId == s.nextUserId && r.nextEventId == s.nextEventId
    ensures |r.attendees| == |s.attendees| + 1
    ensures r.attendees[..|s.attendees|] == s.attendees
    ensures PairKey(r.attendees[|s.attendees|]) == (eventId, userId)
  {
    s.(attendees := s.attendees + [Attendee(s.nextAttendeeId, eventId, userId)],
       nextAttendeeId := s.nextAttendeeId + 1)
  }

  /**
   * `join_event`. The checks run in order: the subject resolves (401), the
   * event exists (404), the capacity (500 when the event has none, 400 when
   * full), the duplicate (400); only then is the row inserted.
   */
  function Join(s: Store, c: Claims, eventId: int): (r: Result<Store>)
    ensures r == Err(InvalidUser) <==> Subject(s, c).None?
    ensures r == Err(EventNotFound) <==> Subject(s, c).Some? && !HasEvent(s, eventId)
    ensures r == Err(ServerError) <==>
      Subject(s, c).Some? && HasEvent(s, eventId) && EventById(s, eventId).value.maxAttendees.None?
    ensures r == Err(EventFull) <==>
      && Subject(s, c).Some? && HasEvent(s, eventId)
      && EventById(s, eventId).value.maxAttendees.Some?
      && !HasRoom(s, EventById(s, eventId).value)
    ensures r == Err(AlreadyRegistered) <==>
      && Subject(s, c).Some? && HasEvent(s, eventId)
      && HasRoom(s, EventById(s, eventId).value)
      && Registered(s, eventId, Subject(s, c).value.id)
    ensures r.Ok? <==>
      && Subject(s, c).Some? && HasEvent(s, eventId)
      && HasRoom(s, EventById(s, eventId).value)
      && !Registered(s, eventId, Subject(s, c).value.id)
    ensures r.Ok? ==> r.value == AddRegistration(s, EventById(s, eventId).value.id, Subject(s, c).value.id)
  {
    match Subject(s, c)
    case None => Err(InvalidUser)
    case Some(user) =>
      match EventById(s, eventId)
      case None => Err(EventNotFound)
      case Some(event) =>
        // comparing the count with a null capacity raises a TypeError
        if event.maxAttendees.None? then Err(ServerError)
        else if AttendeeCount(s, eventId) >= event.maxAttendees.value then Err(EventFull)
        else if RegistrationIndex(s, eventId, user.id).Some? then Err(AlreadyRegistered)
        else Ok(AddRegistration(s, event.id, user.id))
  }

  /**
   * `leave_event`. The subject must resolve (401) and the pair must be
   * registered (400); whether the event exists is never looked at.
   */
  function Leave(s: Store, c: Claims, eventId: int): (r: Result<Store>)
    ensures r == Err(InvalidUser) <==> Subject(s, c).None?
    ensures r == Err(NotRegistered) <==>
      Subject(s, c).Some? && !Registered(s, eventId, Subject(s, c).value.id)
    ensures r.Ok? <==> Subject(s, c).Some? && Registered(s, eventId, Subject(s, c).value.id)
    ensures r.Ok? ==>
      exists i :: 0 <= i < |s.attendees|
        && PairKey(s.attendees[i]) == (eventId, Subject(s, c).value.id)
        && r.value == s.(attendees := RemoveAt(s.attendees, i))
  {
    match Subject(s, c)
    case None => Err(InvalidUser)
    case Some(user) =>
      match RegistrationIndex(s, eventId, user.id)
      case None => Err(NotRegistered)
      case Some(i) => Ok(s.(attendees := RemoveAt(s.attendees, i)))
  }

  /** A successful join registers exactly its pair and changes no other pair or count. */
  lemma JoinRegistersExactlyItsPair(s: Store, c: Claims, eventId: int)
    requires Join(s, c, eventId).Ok?
    ensures var s' := Join(s, c, eventId).value; var uid := Subject(s, c).value.id;
      && Registered(s', eventId, uid)
      && !Registered(s, eventId, uid)
      && (forall e: int, u: int :: (e, u) != (eventId, uid) ==> (Registered(s', e, u) <==> Registered(s, e, u)))
      && AttendeeCount(s', eventId) == AttendeeCount(s, eventId) + 1
      && (forall e: int :: e != eventId ==> AttendeeCount(s', e) == AttendeeCount(s, e))
  {
    var s' := Join(s, c, eventId).value;
    var uid := Subject(s, c).value.id;
    var eid := EventById(s, eventId).value.id;
    var x := Attendee(s.nextAttendeeId, eid, uid);
    assert s'.attendees == s.attendees + [x];
    forall e: int, u: int
      ensures Registered(s', e, u) <==> Registered(s, e, u) || (e, u) == (eventId, uid)
    {
      RegisteredAfterAppend(s, x, e, u);
      assert Registered(s', e, u) == Registered(s.(attendees := s.attendees + [x]), e, u);
    }
    forall e: int
      ensures AttendeesOf(s'.attendees, e) ==
        AttendeesOf(s.attendees, e) + (if eventId == e then [uid] else [])
    {
      AttendeesOfAppend(s.attendees, x, e);
    }
  }

  /** Join keeps the declared constraints, the capacity bound and resolving references. */
  lemma JoinPreservesConsistency(s: Store, c: Claims, eventId: int)
    requires Consistent(s)
    requires Join(s, c, eventId).Ok?
    ensures Consistent(Join(s, c, eventId).value)
  {
    var s' := Join(s, c, eventId).value;
    var user := Subject(s, c).value;
    var eid := EventById(s, eventId).value.id;
    var x := Attendee(s.nextAttendeeId, eid, user.id);
    assert s'.attendees == s.attendees + [x];
    DistinctAppend(s.attendees, x, AttendeeKey);
    forall i | 0 <= i < |s.attendees|
      ensures PairKey(s.attendees[i]) != PairKey(x)
    {
      if PairKey(s.attendees[i]) == PairKey(x) {
        assert s.attendees[i].eventId == eventId && s.attendees[i].userId == user.id;
        assert Registered(s, eventId, user.id);
        assert false;
      }
    }
    DistinctAppend(s.attendees, x, PairKey);
    var k :| 0 <= k < |s.events| && s.events[k].id == eventId;
    assert EventKey(s.events[k]) < s.nextEventId;
    var j :| 0 <= j < |s.users| && s.users[j] == user;
    assert UserKey(s.users[j]) < s.nextUserId;
    assert Valid(s');
    JoinRegistersExactlyItsPair(s, c, eventId);
    forall m | 0 <= m < |s'.events| && s'.events[m].maxAttendees.Some?
      ensures AttendeeCount(s', s'.events[m].id) <= s'.events[m].maxAttendees.value
    {
      if s.events[m].id == eventId {
        EventIndexUnique(s, m);
      }
    }
    assert WithinCapacity(s');
    assert HasUserId(s, x.userId) by {
      assert s.users[j].id == x.userId;
    }
    ResolvesAfterAppend(s, s', x);
  }

  /** With the unique-pair constraint, a successful leave unregisters exactly its pair. */
  lemma LeaveUnregistersExactlyItsPair(s: Store, c: Claims, eventId: int)
    requires Valid(s)
    requires Leave(s, c, eventId).Ok?
    ensures var s' := Leave(s, c, eventId).value; var uid := Subject(s, c).value.id;
      && !Registered(s', eventId, uid)
      && Registered(s, eventId, uid)
      && (forall e: int, u: int :: (e, u) != (eventId, uid) ==> (Registered(s', e, u) <==> Registered(s, e, u)))
      && AttendeeCount(s', eventId) + 1 == AttendeeCount(s, eventId)
      && (forall e: int :: e != eventId ==> AttendeeCount(s', e) == AttendeeCount(s, e))
  {
    var s' := Leave(s, c, eventId).value;
    var uid := Subject(s, c).value.id;
    var i :| 0 <= i < |s.attendees| && PairKey(s.attendees[i]) == (eventId, uid)
      && s' == s.(attendees := RemoveAt(s.attendees, i));
    forall e: int, u: int
      ensures Registered(s', e, u) <==> Registered(s, e, u) && (e, u) != (eventId, uid)
    {
      RegisteredAfterRemoveAt(s, i, e, u);
    }
    forall e: int
      ensures e == eventId ==> AttendeeCount(s', e) + 1 == AttendeeCount(s, e)
      ensures e != eventId ==> AttendeeCount(s', e) == AttendeeCount(s, e)
    {
      AttendeeCountRemoveAt(s.attendees, i, e);
    }
  }

  /** Leave keeps the declared constraints, the capacity bound and resolving references. */
  lemma LeavePreservesConsistency(s: Store, c: Claims, eventId: int)
    requires Consistent(s)
    requires Leave(s, c, eventId).Ok?
    ensures Consistent(Leave(s, c, eventId).value)
  {
    var s' := Leave(s, c, eventId).value;
    var uid := Subject(s, c).value.id;
    var i :| 0 <= i < |s.attendees| && PairKey(s.attendees[i]) == (eventId, uid)
      && s' == s.(attendees := RemoveAt(s.attendees, i));
    DistinctRemoveAt(s.attendees, i, AttendeeKey);
    DistinctRemoveAt(s.attendees, i, PairKey);
    BelowRemoveAt(s.attendees, i, AttendeeKey, s.nextAttendeeId);
    BelowRemoveAt(s.attendees, i, AttendeeEvent, s.nextEventId);
    BelowRemoveAt(s.attendees, i, AttendeeUser, s.nextUserId);
    LeaveUnregistersExactlyItsPair(s, c, eventId);
    ResolvesAfterRemoveAt(s, i);
  }

  /** Join followed by leave of the same pair gives the store back, apart from the spent row id. */
  lemma JoinThenLeaveRestores(s: Store, c: Claims, eventId: int)
    requires Join(s, c, eventId).Ok?
    ensures Leave(Join(s, c, eventId).value, c, eventId) == Ok(s.(nextAttendeeId := s.nextAttendeeId + 1))
  {
    var s1 := Join(s, c, eventId).value;
    var user := Subject(s, c).value;
    var n := |s.attendees|;
    assert s1 == AddRegistration(s, EventById(s, eventId).value.id, user.id);
    assert s1.users == s.users;
    assert Subject(s1, c) == Some(user);
    forall j | 0 <= j < n
      ensures PairKey(s1.attendees[j]) != (eventId, user.id)
    {
      assert s1.attendees[j] == s.attendees[j];
    }
    assert PairKey(s1.attendees[n]) == (eventId, user.id);
    var r := RegistrationIndex(s1, eventId, user.id);
    assert r == Some(n);
    assert RemoveAt(s1.attendees, n) == s.attendees;
    assert s1.(attendees := s.attendees) == s.(nextAttendeeId := s.nextAttendeeId + 1);
  }

  /**
   * Join, leave, join of one pair: every step succeeds, the pair is
   * unregistered in between, and the same pairs end up registered as after
   * the first join.
   */
  lemma JoinLeaveJoin(s: Store, c: Claims, eventId: int)
    requires Join(s, c, eventId).Ok?
    ensures var s1 := Join(s, c, eventId).value;
      && Leave(s1, c, eventId).Ok?
      && !Registered(Leave(s1, c, eventId).value, eventId, Subject(s, c).value.id)
      && Join(Leave(s1, c, eventId).value, c, eventId).Ok?
      && var s3 := Join(Leave(s1, c, eventId).value, c, eventId).value;
         forall e: int, u: int :: Registered(s3, e, u) <==> Registered(s1, e, u)
  {
    var s1 := Join(s, c, eventId).value;
    JoinThenLeaveRestores(s, c, eventId);
    var s2 := Leave(s1, c, eventId).value;
    assert s2 == s.(nextAttendeeId := s.nextAttendeeId + 1);
    assert s2.attendees == s.attendees && s2.users == s.users && s2.events == s.events;
    assert Subject(s2, c) == Subject(s, c);
    assert EventById(s2, eventId) == EventById(s, eventId);
    assert AttendeeCount(s2, eventId) == AttendeeCount(s, eventId);
    var uid := Subject(s, c).value.id;
    assert Registered(s2, eventId, uid) == Registered(s, eventId, uid);
    var s3 := Join(s2, c, eventId).value;
    JoinRegistersExactlyItsPair(s, c, eventId);
    JoinRegistersExactlyItsPair(s2, c, eventId);
    forall e: int, u: int
      ensures Registered(s3, e, u) <==> Registered(s1, e, u)
    {
      assert Registered(s2, e, u) == Registered(s, e, u);
    }
  }

  /**
   * After a successful leave the pair passes the duplicate check; when the
   * event still exists with a capacity, the join goes through.
   */
  lemma LeaveThenJoin(s: Store, c: Claims, eventId: int)
    requires Consistent(s)
    requires Leave(s, c, eventId).Ok?
    ensures Join(Leave(s, c, eventId).value, c, eventId) != Err(AlreadyRegistered)
    ensures HasEvent(s, eventId) && EventById(s, eventId).value.maxAttendees.Some? ==>
      Join(Leave(s, c, eventId).value, c, eventId).Ok?
  {
    var s1 := Leave(s, c, eventId).value;
    LeaveUnregistersExactlyItsPair(s, c, eventId);
    assert Subject(s1, c) == Subject(s, c);
    assert EventById(s1, eventId) == EventById(s, eventId);
    if HasEvent(s, eventId) && EventById(s, eventId).value.maxAttendees.Some? {
      var k := EventIndex(s, eventId).value;
      assert s.events[k] == EventById(s, eventId).value;
    }
  }

  /**
   * Joining a second time never adds a row. Because the capacity check runs
   * first, the answer is "Event is full" when the first join used the last
   * place, and "already registered" otherwise.
   */
  lemma JoinTwice(s: Store, c: Claims, eventId: int)
    requires Join(s, c, eventId).Ok?
    ensures var e := EventById(s, eventId).value;
      Join(Join(s, c, eventId).value, c, eventId) ==
        if AttendeeCount(s, eventId) + 1 >= e.maxAttendees.value then Err(EventFull) else Err(AlreadyRegistered)
  {
    var s1 := Join(s, c, eventId).value;
    JoinRegistersExactlyItsPair(s, c, eventId);
    assert Subject(s1, c) == Subject(s, c);
    assert EventById(s1, eventId) == EventById(s, eventId);
  }

  /**
   * An event of capacity one with no registrations: A joins, B is turned
   * away as full, A leaves, B joins.
   */
  lemma CapacityOneScenario(s: Store, a: Claims, b: Claims, eventId: int)
    requires Subject(s, a).Some? && Subject(s, b).Some?
    requires Subject(s, a).value.id != Subject(s, b).value.id
    requires HasEvent(s, eventId) && EventById(s, eventId).value.maxAttendees == Some(1)
    requires AttendeeCount(s, eventId) == 0
    ensures Join(s, a, eventId).Ok?
    ensures Join(Join(s, a, eventId).value, b, eventId) == Err(EventFull)
    ensures Leave(Join(s, a, eventId).value, a, eventId).Ok?
    ensures Join(Leave(Join(s, a, eventId).value, a, eventId).value, b, eventId).Ok?
  {
    assert AttendeesOf(s.attendees, eventId) == [];
    assert Subject(s, a).value.id !in AttendeesOf(s.attendees, eventId);
    assert Subject(s, b).value.id !in AttendeesOf(s.attendees, eventId);
    var s1 := Join(s, a, eventId).value;
    JoinRegistersExactlyItsPair(s, a, eventId);
    assert Subject(s1, b) == Subject(s, b);
    assert EventById(s1, eventId) == EventById(s, eventId);
    JoinThenLeaveRestores(s, a, eventId);
    var s2 := Leave(s1, a, eventId).value;
    assert s2.attendees == s.attendees && s2.users == s.users && s2.events == s.events;
    assert Subject(s2, b) == Subject(s, b);
    assert EventById(s2, eventId) == EventById(s, eventId);
    assert AttendeeCount(s2, eventId) == 0;
    assert Registered(s2, eventId, Subject(s, b).value.id) == Registered(s, eventId, Subject(s, b).value.id);
  }
}

=== FILE: schemas.dfy ===
/**
 * Request bodies and their field constraints and validators. A body that
 * fails any of them is answered with 422 before its handler runs.
 */
module Schemas {
  import opened Outcomes
  import opened Text
  import opened Models

  /** Body of a registration request. */
  datatype UserCreate = UserCreate(username: string, password: string, role: string)

  /** Body of a user update; every field optional and unconstrained. */
  datatype UserUpdate = UserUpdate(username: Option<string>, password: Option<string>, role: Option<string>)

  /** Body of an event creation; `status` is None when the request leaves it out. */
  datatype EventCreate = EventCreate(
    title: string,
    description: Option<string>,
    location: string,
    date: Date,
    status: Option<string>,
    maxAttendees: Option<int>)

  /**
   * Body of an event update. A field that is None was not sent. `description`
   * may also be sent as null, which is `Some(None)`.
   */
  datatype EventUpdate = EventUpdate(
    title: Option<string>,
    description: Option<Option<string>>,
    location: Option<string>,
    date: Option<Date>,
    status: Option<string>)

  /** Why a field was rejected: a declared constraint, or a validator's message. */
  datatype FieldError = Constraint(field: string) | Rejected(field: string, message: string)

  const Roles: set<string> := {"admin", "masteradmin", "organizer", "attendee"}
  const Statuses: set<string> := {"Scheduled", "Ongoing", "Completed", "Cancelled"}

  const NoSpaces := "Username cannot contain spaces."
  const TooShort := "Password must be at least 8 characters long."
  const NeedsUpper := "Password must contain at least one uppercase letter."
  const NeedsLower := "Password must contain at least one lowercase letter."
  const NeedsDigit := "Password must contain at least one digit."
  const NeedsSpecial := "Password must contain at least one special character."
  const NeedsTimezone := "Event date must be timezone-aware (use UTC)."
  const InThePast := "Event date must be in the future."

  predicate HasSpace(s: string) {
    exists i :: 0 <= i < |s| && s[i] == ' '
  }

  /** The username rule: 3 to 50 characters, none of them a space. */
  predicate GoodUsername(u: string) {
    3 <= |u| <= 50 && !HasSpace(u)
  }

  /** The password rule: at least 8 characters, with an upper-case letter, a lower-case letter, a digit and a special character. */
  predicate StrongPassword(p: string) {
    && |p| >= 8
    && (exists i :: 0 <= i < |p| && IsUpper(p[i]))
    && (exists i :: 0 <= i < |p| && IsLower(p[i]))
    && (exists i :: 0 <= i < |p| && IsDigit(p[i]))
    && (exists i :: 0 <= i < |p| && IsSpecial(p[i]))
  }

  /** The date rule: time-zone qualified and not earlier than `now`. */
  predicate GoodDate(d: Date, now: int) {
    d.hasTz && d.instant >= now
  }

  /** The length constraint on `username`, then `validate_username`. */
  function UsernameError(u: string): (r: Option<FieldError>)
    ensures r.None? <==> GoodUsername(u)
    ensures r == Some(Rejected("username", NoSpaces)) <==> 3 <= |u| <= 50 && HasSpace(u)
  {
    if !(3 <= |u| <= 50) then Some(Constraint("username"))
    else if ' ' in u then Some(Rejected("username", NoSpaces))
    else None
  }

  /** The `min_length=6` constraint on `password`, then `validate_password`, which reports the first rule broken. */
  function PasswordError(p: string): (r: Option<FieldError>)
    ensures r.None? <==> StrongPassword(p)
    ensures r == Some(Constraint("password")) <==> |p| < 6
    ensures r == Some(Rejected("password", TooShort)) <==> 6 <= |p| < 8
    ensures r == Some(Rejected("password", NeedsUpper)) <==>
      |p| >= 8 && forall i :: 0 <= i < |p| ==> !IsUpper(p[i])
    ensures r == Some(Rejected("password", NeedsSpecial)) <==>
      |p| >= 8
      && (exists i :: 0 <= i < |p| && IsUpper(p[i]))
      && (exists i :: 0 <= i < |p| && IsLower(p[i]))
      && (exists i :: 0 <= i < |p| && IsDigit(p[i]))
      && forall i :: 0 <= i < |p| ==> !IsSpecial(p[i])
  {
    if |p| < 6 then Some(Constraint("password"))
    else if |p| < 8 then Some(Rejected("password", TooShort))
    else if !Search(p, IsUpper) then Some(Rejected("password", NeedsUpper))
    else if !Search(p, IsLower) then Some(Rejected("password", NeedsLower))
    else if !Search(p, IsDigit) then Some(Rejected("password", NeedsDigit))
    else if !Search(p, IsSpecial) then Some(Rejected("password", NeedsSpecial))
    else None
  }

  /** `validate_date`: the time-zone check comes before the comparison with now. */
  function DateError(d: Date, now: int): (r: Option<FieldError>)
    ensures r.None? <==> GoodDate(d, now)
    ensures r == Some(Rejected("date", NeedsTimezone)) <==> !d.hasTz
    ensures r == Some(Rejected("date", InThePast)) <==> d.hasTz && d.instant < now
  {
    if !d.hasTz then Some(Rejected("date", NeedsTimezone))
    else if d.instant < now then Some(Rejected("date", InThePast))
    else None
  }

  predicate GoodTitle(t: string) { 3 <= |t| <= 100 }
  predicate GoodLocation(l: string) { 3 <= |l| <= 200 }
  predicate GoodDescription(d: Option<string>) { d.None? || |d.value| <= 500 }
  predicate GoodCapacity(m: Option<int>) { m.None? || m.value > 0 }

  /** A registration body passes exactly when `UsernameError` and `PasswordError` report nothing and the role matches the pattern. */
  function ValidUserCreate(b: UserCreate): (r: bool)
    ensures r ==> 3 <= |b.username| <= 50 && |b.password| >= 8
    ensures r ==> b.role == "admin" || b.role == "masteradmin" || b.role == "organizer" || b.role == "attendee"
  {
    GoodUsername(b.username) && StrongPassword(b.password) && b.role in Roles
  }

  /** `ValidUserCreate` agrees with the username and password validators and the role pattern. */
  lemma ValidUserCreateIsValidators(b: UserCreate)
    ensures ValidUserCreate(b) <==> UsernameError(b.username).None? && PasswordError(b.password).None? && b.role in Roles
  {
  }

  /** A creation body passes its field constraints and `validate_date`. */
  function ValidEventCreate(b: EventCreate, now: int): (r: bool)
    ensures r <==>
      && 3 <= |b.title| <= 100
      && (b.description.Some? ==> |b.description.value| <= 500)
      && 3 <= |b.location| <= 200
      && DateError(b.date, now).None?
      && (b.status.Some? ==> b.status.value in Statuses)
      && (b.maxAttendees.Some? ==> b.maxAttendees.value >= 1)
  {
    && GoodTitle(b.title)
    && GoodDescription(b.description)
    && GoodLocation(b.location)
    && GoodDate(b.date, now)
    && (b.status.None? || b.status.value in Statuses)
    && GoodCapacity(b.maxAttendees)
  }

  /** Only the fields that were sent are checked, each against the creation bounds. */
  function ValidEventUpdate(p: EventUpdate, now: int): (r: bool)
    ensures p == EventUpdate(None, None, None, None, None) ==> r
    ensures r <==>
      && (p.title.Some? ==> 3 <= |p.title.value| <= 100)
      && (p.description.Some? && p.description.value.Some? ==> |p.description.value.value| <= 500)
      && (p.location.Some? ==> 3 <= |p.location.value| <= 200)
      && (p.date.Some? ==> DateError(p.date.value, now).None?)
      && (p.status.Some? ==> p.status.value in Statuses)
  {
    && (p.title.None? || GoodTitle(p.title.value))
    && (p.description.None? || GoodDescription(p.description.value))
    && (p.location.None? || GoodLocation(p.location.value))
    && (p.date.None? || GoodDate(p.date.value, now))
    && (p.status.None? || p.status.value in Statuses)
  }

  /** Every field of a valid creation body, sent as an update, passes the update's checks. */
  lemma CreateBodyIsValidUpdate(b: EventCreate, now: int)
    requires ValidEventCreate(b, now)
    ensures ValidEventUpdate(EventUpdate(Some(b.title), Some(b.description), Some(b.location), Some(b.date), b.status), now)
  {
  }

  /** The status a creation body stands for: the one sent, or the default. */
  function StatusOf(b: EventCreate): (r: string)
    requires b.status.None? || b.status.value in Statuses
    ensures r in Statuses
    ensures b.status.None? ==> r == DefaultStatus
    ensures b.status.Some? ==> r == b.status.value
  {
    b.status.GetOr(DefaultStatus)
  }

  /** A date equal to now is accepted; any earlier one is not. */
  lemma DateBoundary(d: Date, now: int)
    requires d.hasTz
    ensures d.instant == now ==> DateError(d, now).None?
    ensures d.instant == now - 1 ==> DateError(d, now) == Some(Rejected("date", InThePast))
  {
  }
}

=== FILE: tables.dfy ===
/**
 * Tables as sequences of rows in scan order, which is what a query without
 * ORDER BY walks through, and the integrity constraints a table can declare.
 */
module Tables {
  import opened Outcomes

  /** `.filter(p).first()`: the position of the first row satisfying `p`. */
  function First<T>(s: seq<T>, p: T -> bool): (r: Option<nat>)
    ensures r.Some? ==> r.value < |s| && p(s[r.value])
    ensures r.Some? ==> forall j :: 0 <= j < r.value ==> !p(s[j])
    ensures r.None? <==> forall j :: 0 <= j < |s| ==> !p(s[j])
  {
    if |s| == 0 then None
    else if p(s[0]) then Some(0)
    else
      match First(s[1..], p)
      case None =>
        assert forall j :: 1 <= j < |s| ==> s[j] == s[1..][j - 1];
        None
      case Some(k) =>
        assert forall j :: 1 <= j < k + 1 ==> s[j] == s[1..][j - 1];
        Some(k + 1)
  }

  /** The table with the row at position `i` deleted. */
  function RemoveAt<T>(s: seq<T>, i: nat): (r: seq<T>)
    requires i < |s|
    ensures |r| == |s| - 1
    ensures forall k :: 0 <= k < i ==> r[k] == s[k]
    ensures forall k :: i <= k < |r| ==> r[k] == s[k + 1]
  {
    s[..i] + s[i + 1..]
  }

  /** A unique constraint: no two rows share a key. */
  predicate Distinct<T, K(==)>(s: seq<T>, key: T -> K) {
    forall i, j :: 0 <= i < |s| && 0 <= j < |s| && i != j ==> key(s[i]) != key(s[j])
  }

  /** Every key was handed out by a counter that now stands at `bound`. */
  predicate Below<T>(s: seq<T>, key: T -> nat, bound: nat) {
    forall i :: 0 <= i < |s| ==> key(s[i]) < bound
  }

  lemma DistinctAppend<T, K>(s: seq<T>, x: T, key: T -> K)
    requires Distinct(s, key)
    requires forall i :: 0 <= i < |s| ==> key(s[i]) != key(x)
    ensures Distinct(s + [x], key)
  {
  }

  lemma DistinctRemoveAt<T, K>(s: seq<T>, i: nat, key: T -> K)
    requires i < |s|
    requires Distinct(s, key)
    ensures Distinct(RemoveAt(s, i), key)
  {
    var r := RemoveAt(s, i);
    forall a, b | 0 <= a < |r| && 0 <= b < |r| && a != b
      ensures key(r[a]) != key(r[b])
    {
      var a' := if a < i then a else a + 1;
      var b' := if b < i then b else b + 1;
      assert r[a] == s[a'] && r[b] == s[b'];
    }
  }

  lemma DistinctReplace<T, K>(s: seq<T>, i: nat, x: T, key: T -> K)
    requires i < |s|
    requires Distinct(s, key)
    requires forall j :: 0 <= j < |s| && j != i ==> key(s[j]) != key(x)
    ensures Distinct(s[i := x], key)
  {
  }

  lemma BelowRemoveAt<T>(s: seq<T>, i: nat, key: T -> nat, bound: nat)
    requires i < |s|
    requires Below(s, key, bound)
    ensures Below(RemoveAt(s, i), key, bound)
  {
  }
}

=== FILE: text.dfy ===
/**
 * Character classes and case folding used by the validators and the role checks.
 */
module Text {

  predicate IsUpper(c: char) { 'A' <= c <= 'Z' }
  predicate IsLower(c: char) { 'a' <= c <= 'z' }
  predicate IsDigit(c: char) { '0' <= c <= '9' }

  /** The special characters the password rule accepts. */
  const Specials: string := "!@#$%^&*(),.?\":{}|<>"

  predicate IsSpecial(c: char) { c in Specials }

  function LowerChar(c: char): (r: char)
    ensures !IsUpper(r)
    ensures !IsUpper(c) ==> r == c
    ensures IsUpper(c) ==> IsLower(r) && r as int == c as int + 32
  {
    if IsUpper(c) then (c as int + 32) as char else c
  }

  /**
   * `str.lower()` on the ASCII letters. For the comparisons the service makes
   * (against "admin", "organizer" and "masteradmin") this agrees with Python's
   * Unicode lowering.
   */
  function Lower(s: string): (r: string)
    ensures |r| == |s|
    ensures forall i :: 0 <= i < |s| ==> r[i] == LowerChar(s[i])
  {
    if |s| == 0 then [] else [LowerChar(s[0])] + Lower(s[1..])
  }

  /**
   * `s` spells a word in any mix of cases: at every position it holds the
   * word's lower-case or its upper-case letter.
   */
  predicate AnyCaseOf(s: string, lower: string, upper: string) {
    && |s| == |lower| == |upper|
    && forall i :: 0 <= i < |s| ==> s[i] == lower[i] || s[i] == upper[i]
  }

  /** A word of lower-case letters, with `upper` its upper-case spelling. */
  predicate CasePair(lower: string, upper: string) {
    && |lower| == |upper|
    && forall i :: 0 <= i < |lower| ==> IsLower(lower[i]) && upper[i] as int == lower[i] as int - 32
  }

  /** Lowering a string gives a lower-case word exactly when the string spells that word in some mix of cases. */
  lemma {:induction false} LowerIsAnyCase(s: string, lower: string, upper: string)
    requires CasePair(lower, upper)
    ensures Lower(s) == lower <==> AnyCaseOf(s, lower, upper)
  {
    if AnyCaseOf(s, lower, upper) {
      forall i | 0 <= i < |s|
        ensures Lower(s)[i] == lower[i]
      {
        if s[i] == upper[i] {
          assert IsUpper(upper[i]);
        }
      }
    }
    if Lower(s) == lower {
      forall i | 0 <= i < |s|
        ensures s[i] == lower[i] || s[i] == upper[i]
      {
        assert LowerChar(s[i]) == lower[i];
      }
    }
  }

  /** `re.search` with a one-character class: does some character of `s` belong to it? */
  function Search(s: string, member: char -> bool): (r: bool)
    ensures r <==> exists i :: 0 <= i < |s| && member(s[i])
  {
    if |s| == 0 then false
    else if member(s[0]) then true
    else
      var rest := Search(s[1..], member);
      assert forall i :: 1 <= i < |s| ==> s[i] == s[1..][i - 1];
      rest
  }
}

=== FILE: users.dfy ===
/**
 * The user handlers of users.py: registration by admins, login (with the
 * master admin's stored-nowhere credentials), and the admin-only
 * list/get/update/delete endpoints.
 */
module Users {
  import opened Outcomes
  import opened Tables
  import opened Text
  import opened Models
  import opened Auth
  import opened Schemas

  /** `MASTER_ADMIN_PASSWORD`, with its default value. */
  const MasterAdminPassword: string := "masteradmin"

  const OnlyAdminsCreate := HttpError(403, "Only admins can create new users.")
  const ReservedUsername := HttpError(403, "This username is reserved for the system.")
  const UsernameTaken := HttpError(400, "Username already exists")
  const InvalidCredentials := HttpError(401, "Invalid credentials")
  const UserNotFound := HttpError(404, "User not found")
  /** The commit raised (here: the unique constraint on `username`) and was rolled back. */
  const UpdateFailed := HttpError(500, "Update failed")

  /**
   * Registration needs the role claim admin, in any mix of cases; the master
   * admin's username alone does not do.
   */
  function MayRegister(c: Claims): (r: bool)
    ensures r <==> c.role.Some? && AnyCaseOf(c.role.value, "admin", "ADMIN")
  {
    if c.role.None? then false
    else
      LowerIsAnyCase(c.role.value, "admin", "ADMIN");
      RoleClaim(c) == "admin"
  }

  /** The gate of list/get/update/delete, decided from the claims alone. */
  function RequesterIsAdminOrMaster(c: Claims): (r: bool)
    ensures r <==> c.sub == Some(MasterAdminUsername) || (c.role.Some? && AnyCaseOf(c.role.value, "admin", "ADMIN"))
  {
    MayRegister(c) || c.sub == Some(MasterAdminUsername)
  }

  /**
   * The master admin's username, compared ignoring case, is reserved: the
   * names agree character by character once both are lowered.
   */
  function Reserved(username: string): (r: bool)
    ensures r <==> AnyCaseOf(username, "masteradmin", "MASTERADMIN")
  {
    && |username| == |MasterAdminUsername|
    && forall i :: 0 <= i < |username| ==> LowerChar(username[i]) == LowerChar(MasterAdminUsername[i])
  }

  /** `Reserved` is the comparison `username.lower() == MASTER_ADMIN_USERNAME.lower()`. */
  lemma ReservedIsLoweredEquality(username: string)
    ensures Reserved(username) ==> Lower(username) == Lower(MasterAdminUsername)
    ensures Lower(username) == Lower(MasterAdminUsername) ==> Reserved(username)
  {
  }

  /** Every check of `register` passes: the body is valid, the requester may register, the name is free. */
  predicate Admitted(s: Store, c: Claims, b: UserCreate) {
    ValidUserCreate(b) && MayRegister(c) && !Reserved(b.username) && !HasUserNamed(s, b.username)
  }

  /** `UserResponse` */
  datatype UserView = UserView(id: nat, username: string, role: string)

  function ViewOf(u: User): UserView {
    UserView(u.id, u.username, u.role)
  }

  /**
   * `register`: validation, then the role claim (403), the reserved name
   * (403), the exact-match duplicate (400); then one user is inserted with the
   * hashed password and the requested role.
   */
  function Register(s: Store, c: Claims, b: UserCreate, hash: string -> string): (r: Result<(Store, User)>)
    ensures !ValidUserCreate(b) ==> r == Err(ValidationFailed)
    ensures r == Err(OnlyAdminsCreate) <==> ValidUserCreate(b) && !MayRegister(c)
    ensures r == Err(ReservedUsername) <==> ValidUserCreate(b) && MayRegister(c) && Reserved(b.username)
    ensures r == Err(UsernameTaken) <==>
      ValidUserCreate(b) && MayRegister(c) && !Reserved(b.username) && HasUserNamed(s, b.username)
    ensures r.Ok? <==> Admitted(s, c, b)
    ensures r.Ok? ==>
      var (s', u) := r.value;
      && u == User(s.nextUserId, b.username, hash(b.password), b.role, DefaultIsActive)
      && s' == s.(users := s.users + [u], nextUserId := s.nextUserId + 1)
  {
    if !ValidUserCreate(b) then Err(ValidationFailed)
    else if !MayRegister(c) then Err(OnlyAdminsCreate)
    else if Reserved(b.username) then Err(ReservedUsername)
    else if UserByName(s, Some(b.username)).Some? then Err(UsernameTaken)
    else
      var u := User(s.nextUserId, b.username, hash(b.password), b.role, DefaultIsActive);
      Ok((s.(users := s.users + [u], nextUserId := s.nextUserId + 1), u))
  }

  /**
   * `login`: the master admin's exact credentials get an admin token without
   * a lookup; otherwise the first user with the username must exist and the
   * password must verify against the stored hash. The token carries the
   * stored role.
   */
  function Login(s: Store, username: string, password: string, verify: (string, string) -> bool): (r: Result<Claims>)
    ensures username == MasterAdminUsername && password == MasterAdminPassword ==>
      r == Ok(Claims(Some(MasterAdminUsername), Some("admin")))
    ensures r.Err? ==> r.error == InvalidCredentials
    ensures !(username == MasterAdminUsername && password == MasterAdminPassword) ==>
      var found := UserByName(s, Some(username));
      && (r.Ok? <==> found.Some? && verify(password, found.value.password))
      && (r.Ok? ==> r.value == Claims(Some(username), Some(found.value.role)))
  {
    if username == MasterAdminUsername && password == MasterAdminPassword then
      Ok(Claims(Some(MasterAdminUsername), Some("admin")))
    else
      match UserByName(s, Some(username))
      case None => Err(InvalidCredentials)
      case Some(u) =>
        if !verify(password, u.password) then Err(InvalidCredentials)
        else Ok(Claims(Some(u.username), Some(u.role)))
  }

  /** `list_users` */
  function ListUsers(s: Store, c: Claims): (r: Result<seq<UserView>>)
    ensures r.Err? <==> !RequesterIsAdminOrMaster(c)
    ensures r.Err? ==> r.error == AdminsOnly
    ensures r.Ok? ==> |r.value| == |s.users|
    ensures r.Ok? ==> forall i :: 0 <= i < |s.users| ==> r.value[i] == ViewOf(s.users[i])
  {
    if !RequesterIsAdminOrMaster(c) then Err(AdminsOnly)
    else Ok(seq(|s.users|, i requires 0 <= i < |s.users| => ViewOf(s.users[i])))
  }

  /** `get_user`: authorization comes before the lookup. */
  function GetUser(s: Store, c: Claims, id: int): (r: Result<UserView>)
    ensures !RequesterIsAdminOrMaster(c) ==> r == Err(AdminsOnly)
    ensures r == Err(UserNotFound) <==> RequesterIsAdminOrMaster(c) && !HasUserId(s, id)
    ensures r.Ok? <==> RequesterIsAdminOrMaster(c) && HasUserId(s, id)
    ensures r.Ok? ==> r.value.id == id && exists i :: 0 <= i < |s.users| && ViewOf(s.users[i]) == r.value
  {
    if !RequesterIsAdminOrMaster(c) then Err(AdminsOnly)
    else
      match UserIndex(s, id)
      case None => Err(UserNotFound)
      case Some(k) => Ok(ViewOf(s.users[k]))
  }

  /** For an authorized caller, fetching a stored user by id gives that user's entry in the list. */
  lemma ListUsersAgreesWithGetUser(s: Store, c: Claims, i: nat)
    requires Valid(s)
    requires RequesterIsAdminOrMaster(c)
    requires i < |s.users|
    ensures GetUser(s, c, s.users[i].id) == Ok(ListUsers(s, c).value[i])
  {
    UserIndexUnique(s, i);
  }

  /** A field of the update counts only when it was sent and is not empty. */
  predicate Truthy(field: Option<string>) {
    field.Some? && field.value != ""
  }

  /** The user after the update's truthy fields are applied, the password hashed. */
  function Patched(u: User, p: UserUpdate, hash: string -> string): (r: User)
    ensures r.id == u.id && r.isActive == u.isActive
    ensures r.username == (if Truthy(p.username) then p.username.value else u.username)
    ensures r.password == (if Truthy(p.password) then hash(p.password.value) else u.password)
    ensures r.role == (if Truthy(p.role) then p.role.value else u.role)
  {
    u.(username := if Truthy(p.username) then p.username.value else u.username,
       password := if Truthy(p.password) then hash(p.password.value) else u.password,
       role := if Truthy(p.role) then p.role.value else u.role)
  }

  /** The new username is held by some other row, so the commit breaks the unique constraint. */
  predicate UsernameClash(s: Store, k: nat, p: UserUpdate) {
    Truthy(p.username) && exists j :: 0 <= j < |s.users| && j != k && s.users[j].username == p.username.value
  }

  /**
   * `update_user`: authorization, then 404, then the patch. A username taken
   * by another user makes the commit fail; the session is rolled back.
   */
  function UpdateUser(s: Store, c: Claims, id: int, p: UserUpdate, hash: string -> string): (r: Result<(Store, User)>)
    ensures !RequesterIsAdminOrMaster(c) ==> r == Err(AdminsOnly)
    ensures r == Err(UserNotFound) <==> RequesterIsAdminOrMaster(c) && !HasUserId(s, id)
    ensures r == Err(UpdateFailed) <==>
      RequesterIsAdminOrMaster(c) && HasUserId(s, id) && UsernameClash(s, UserIndex(s, id).value, p)
    ensures r.Ok? <==>
      RequesterIsAdminOrMaster(c) && HasUserId(s, id) && !UsernameClash(s, UserIndex(s, id).value, p)
    ensures r.Ok? ==>
      var k := UserIndex(s, id).value;
      && r.value.1 == Patched(s.users[k], p, hash)
      && r.value.0 == s.(users := s.users[k := r.value.1])
  {
    if !RequesterIsAdminOrMaster(c) then Err(AdminsOnly)
    else
      match UserIndex(s, id)
      case None => Err(UserNotFound)
      case Some(k) =>
        if UsernameClash(s, k, p) then Err(UpdateFailed)
        else
          var u := Patched(s.users[k], p, hash);
          Ok((s.(users := s.users[k := u]), u))
  }

  /**
   * The events table after user `userId` is deleted: the ORM nulls
   * `organizer_id` on the events the user organized, a nullable column.
   */
  function Disowned(events: seq<Event>, userId: int): (r: seq<Event>)
    ensures |r| == |events|
    ensures forall k :: 0 <= k < |r| ==> r[k].organizerId != Some(userId)
    ensures forall k :: 0 <= k < |r| && events[k].organizerId != Some(userId) ==> r[k] == events[k]
    ensures forall k :: 0 <= k < |r| ==> r[k] == events[k].(organizerId := r[k].organizerId)
  {
    seq(|events|, k requires 0 <= k < |events| =>
      if events[k].organizerId == Some(userId) then events[k].(organizerId := None) else events[k])
  }

  /**
   * `delete_user`: authorization, then 404, then the delete. The ORM nulls
   * `user_id` on the user's registration rows; that column is NOT NULL, so
   * while any row refers to the user the commit fails and is rolled back.
   * Otherwise the user's events lose their organizer.
   */
  function DeleteUser(s: Store, c: Claims, id: int): (r: Result<Store>)
    ensures !RequesterIsAdminOrMaster(c) ==> r == Err(AdminsOnly)
    ensures r == Err(UserNotFound) <==> RequesterIsAdminOrMaster(c) && !HasUserId(s, id)
    ensures r == Err(DeletionFailed) <==> RequesterIsAdminOrMaster(c) && HasUserId(s, id) && UserReferenced(s, id)
    ensures r.Ok? <==> RequesterIsAdminOrMaster(c) && HasUserId(s, id) && !UserReferenced(s, id)
    ensures r.Ok? ==>
      r.value == s.(users := RemoveAt(s.users, UserIndex(s, id).value), events := Disowned(s.events, id))
  {
    if !RequesterIsAdminOrMaster(c) then Err(AdminsOnly)
    else
      match UserIndex(s, id)
      case None => Err(UserNotFound)
      case Some(k) =>
        if UserReferenced(s, id) then Err(DeletionFailed)
        else Ok(s.(users := RemoveAt(s.users, k), events := Disowned(s.events, id)))
  }

  /** Inserting a user under the next id and an unused username keeps the store consistent. */
  lemma InsertUserPreservesConsistency(s: Store, u: User)
    requires Consistent(s)
    requires u.id == s.nextUserId && !HasUserNamed(s, u.username)
    ensures Consistent(s.(users := s.users + [u], nextUserId := s.nextUserId + 1))
  {
    var s' := s.(users := s.users + [u], nextUserId := s.nextUserId + 1);
    forall i | 0 <= i < |s.users|
      ensures UserKey(s.users[i]) != UserKey(u) && UsernameKey(s.users[i]) != UsernameKey(u)
    {
      assert UserKey(s.users[i]) < s.nextUserId;
    }
    DistinctAppend(s.users, u, UserKey);
    DistinctAppend(s.users, u, UsernameKey);
    assert Valid(s');
    assert forall e :: AttendeeCount(s', e) == AttendeeCount(s, e);
    forall i | 0 <= i < |s.attendees|
      ensures HasUserId(s', s.attendees[i].userId)
    {
      var j :| 0 <= j < |s.users| && s.users[j].id == s.attendees[i].userId;
      assert s'.users[j] == s.users[j];
    }
    ResolvesAfterUsersChange(s, s');
  }

  /** Registration keeps the declared constraints, the capacity bound and resolving references. */
  lemma RegisterPreservesConsistency(s: Store, c: Claims, b: UserCreate, hash: string -> string)
    requires Consistent(s)
    requires Admitted(s, c, b)
    ensures Consistent(Register(s, c, b, hash).value.0)
  {
    var r := Register(s, c, b, hash);
    assert !HasUserNamed(s, b.username);
    var u := User(s.nextUserId, b.username, hash(b.password), b.role, DefaultIsActive);
    assert r.value.0 == s.(users := s.users + [u], nextUserId := s.nextUserId + 1);
    InsertUserPreservesConsistency(s, u);
  }

  /** A registered user can log in with the password they were registered with, and gets the role they were given. */
  lemma RegisterThenLogin(s: Store, c: Claims, b: UserCreate, hash: string -> string, verify: (string, string) -> bool)
    requires Admitted(s, c, b)
    requires verify(b.password, hash(b.password))
    ensures Login(Register(s, c, b, hash).value.0, b.username, b.password, verify) ==
      Ok(Claims(Some(b.username), Some(b.role)))
  {
    var (s', u) := Register(s, c, b, hash).value;
    assert b.username != MasterAdminUsername;
    var n := |s.users|;
    assert s'.users[n] == u;
    forall j | 0 <= j < n
      ensures s'.users[j].username != b.username
    {
      assert s'.users[j] == s.users[j];
    }
    var found := UserByName(s', Some(b.username));
    var k :| 0 <= k < |s'.users| && s'.users[k] == found.value;
    assert k == n;
  }

  /** The master admin's exact credentials yield a token that passes every admin gate, whatever the store holds. */
  lemma MasterLoginPassesEveryGate(s: Store, verify: (string, string) -> bool)
    ensures Login(s, MasterAdminUsername, MasterAdminPassword, verify).Ok?
    ensures var c := Login(s, MasterAdminUsername, MasterAdminPassword, verify).value;
      MayRegister(c) && RequesterIsAdminOrMaster(c)
  {
  }

  /**
   * The registration asymmetry: a token naming the master admin but without
   * the admin role claim passes the user-management gate and is still
   * refused registration.
   */
  lemma MasterNameAloneCannotRegister(s: Store, c: Claims, b: UserCreate, hash: string -> string)
    requires ValidUserCreate(b)
    requires c.sub == Some(MasterAdminUsername) && RoleClaim(c) != "admin"
    ensures RequesterIsAdminOrMaster(c)
    ensures Register(s, c, b, hash) == Err(OnlyAdminsCreate)
  {
  }

  /** Registering the reserved username is refused with 403 whatever the requester's claims. */
  lemma ReservedNameAlwaysForbidden(s: Store, c: Claims, b: UserCreate, hash: string -> string)
    requires ValidUserCreate(b)
    requires Reserved(b.username)
    ensures Register(s, c, b, hash).Err? && Register(s, c, b, hash).error.status == 403
  {
    if MayRegister(c) {
      assert Register(s, c, b, hash) == Err(ReservedUsername);
    } else {
      assert Register(s, c, b, hash) == Err(OnlyAdminsCreate);
    }
  }

  /** A user update keeps the declared constraints, the capacity bound and resolving references: ids are untouched and a clashing username is rolled back. */
  lemma UpdateUserPreservesConsistency(s: Store, c: Claims, id: int, p: UserUpdate, hash: string -> string)
    requires Consistent(s)
    requires UpdateUser(s, c, id, p, hash).Ok?
    ensures Consistent(UpdateUser(s, c, id, p, hash).value.0)
  {
    var (s', u) := UpdateUser(s, c, id, p, hash).value;
    var k := UserIndex(s, id).value;
    forall j | 0 <= j < |s.users| && j != k
      ensures UserKey(s.users[j]) != UserKey(u) && UsernameKey(s.users[j]) != UsernameKey(u)
    {
      assert UserKey(s.users[j]) != UserKey(s.users[k]);
      assert UsernameKey(s.users[j]) != UsernameKey(s.users[k]);
    }
    DistinctReplace(s.users, k, u, UserKey);
    DistinctReplace(s.users, k, u, UsernameKey);
    forall i | 0 <= i < |s.attendees|
      ensures HasUserId(s', s.attendees[i].userId)
    {
      var j :| 0 <= j < |s.users| && s.users[j].id == s.attendees[i].userId;
      assert s'.users[j].id == s.users[j].id;
    }
    ResolvesAfterUsersChange(s, s');
  }

  /**
   * Deleting a user keeps the declared constraints, the capacity bound and
   * resolving references: a user that registrations still refer to is never
   * deleted, and nulling an organizer changes no id or capacity.
   */
  lemma DeleteUserPreservesConsistency(s: Store, c: Claims, id: int)
    requires Consistent(s)
    requires DeleteUser(s, c, id).Ok?
    ensures Consistent(DeleteUser(s, c, id).value)
  {
    var s' := DeleteUser(s, c, id).value;
    var k := UserIndex(s, id).value;
    DistinctRemoveAt(s.users, k, UserKey);
    DistinctRemoveAt(s.users, k, UsernameKey);
    BelowRemoveAt(s.users, k, UserKey, s.nextUserId);
    assert forall m :: 0 <= m < |s.events| ==> EventKey(s'.events[m]) == EventKey(s.events[m]);
    assert Distinct(s'.events, EventKey);
    assert Valid(s');
    forall m | 0 <= m < |s'.events| && s'.events[m].maxAttendees.Some?
      ensures AttendeeCount(s', s'.events[m].id) <= s'.events[m].maxAttendees.value
    {
      assert s'.events[m].id == s.events[m].id && s'.events[m].maxAttendees == s.events[m].maxAttendees;
    }
    forall i | 0 <= i < |s.attendees|
      ensures HasUserId(s', s.attendees[i].userId)
    {
      var j :| 0 <= j < |s.users| && s.users[j].id == s.attendees[i].userId;
      assert j != k;
      var j' := if j < k then j else j - 1;
      assert s'.users[j'] == s.users[j];
    }
    ResolvesAfterUsersChange(s, s');
  }

  /**
   * A successful delete removes the user and no other, leaves registrations
   * alone, and leaves no event organized by the deleted id; every event is
   * kept, with only its organizer possibly nulled.
   */
  lemma DeleteUserRemovesOnlyTarget(s: Store, c: Claims, id: int)
    requires Valid(s)
    requires DeleteUser(s, c, id).Ok?
    ensures var s' := DeleteUser(s, c, id).value;
      && !HasUserId(s', id)
      && (forall j :: 0 <= j < |s.users| && s.users[j].id != id ==> s.users[j] in s'.users)
      && s'.attendees == s.attendees
      && |s'.events| == |s.events|
      && (forall m :: 0 <= m < |s'.events| ==>
            s'.events[m].id == s.events[m].id && s'.events[m].organizerId != Some(id))
  {
    var s' := DeleteUser(s, c, id).value;
    var k := UserIndex(s, id).value;
    forall j | 0 <= j < |s'.users|
      ensures s'.users[j].id != id
    {
      var j' := if j < k then j else j + 1;
      assert s'.users[j] == s.users[j'];
      assert UserKey(s.users[j']) != UserKey(s.users[k]);
    }
    forall j | 0 <= j < |s.users| && s.users[j].id != id
      ensures s.users[j] in s'.users
    {
      assert j != k;
      var j' := if j < k then j else j - 1;
      assert s'.users[j'] == s.users[j];
    }
  }
}
